=== FILE: README.md ===
# Pharmacy backend — a Dafny model of its request logic

This project models the request handlers of an Express/Mongoose pharmacy backend:

- **Catalog.** Medicines are listed with filtering and pagination. Admins create, edit, delete and photograph them.
- **Orders.** A customer places an order for a list of items. Stock is checked and decremented item by item, prices are snapshotted, and a prescription gate applies when an item needs one. Staff move orders between statuses.
- **Prescriptions.** Customers upload them; doctors and admins review them.
- **Accounts.** Register, login, refresh-token rotation, admin statistics and user deletion.

## Modelling choices

- **The database.** It is a value `Store.Db`: one map from ids to records per collection. Every handler is a pure function from the database and the request to a `Reply`, which is the response (`Ok` or an `Error` carrying its HTTP status) together with the database afterwards.
- **Fresh ids.** Mongo ObjectIds are `newId` parameters, required to be unused.
- **Access control.** Who may call a route is a `requires` on the handler, e.g. `caller.role == Admin` or `caller.role.IsStaff()`. `protect` and `authorize` are not modelled.
- **Listing query.** The query string is a tree of strings, arrays and objects (`Query.Value`). The filter is built the way the handler builds it: reserved keys are deleted, the rest is written out as JSON text, and the operator words are rewritten with a `$` prefix.
- **Running a query.** Mongo's evaluation of a find query (`$text` search, projection and sort included) is a function parameter `run`. The model proves what the handler does around it: page arithmetic, skip/limit, links and count.
- **Crypto.** Password hashing and JWT signing/verification are the function fields of `Auth.Crypto`. Signing takes the issue time in whole seconds, as a JWT `iat` claim does.
- **Numbers.** Money, stock and quantities are unbounded `int` (prices in minor units). `parseInt` and the `|| default` idiom are modelled on strings.

The modules are:

| module | covers |
|---|---|
| `Wrappers` | `Option` and `Result` |
| `Text` | JavaScript `trim` and `parseInt(s, 10)` |
| `Models` | Medicine, Order and Prescription records, their enums and schema validation |
| `Store` | the database, errors, and owner-or-staff visibility |
| `Query` | reserved query keys, JSON text, the operator rewrite |
| `Catalog` | the medicine controller |
| `OrderItems` | the item loop of `createOrder` and a reference description of its outcome |
| `Orders` | the order controller |
| `Prescriptions` | the prescription controller |
| `Auth` | the auth controller |

## Behaviour worth knowing

- **Another user's prescription.** Naming a prescription that belongs to someone else is answered exactly like one that does not exist: 400 "Invalid prescription" (backend/src/controllers/orderController.js:63-67; `Orders.PrescriptionGate`).
- **Reviews.** A review overwrites status, notes and reviewer whatever the current status, so an approval can be withdrawn and a rejection overturned (backend/src/controllers/prescriptionController.js:59-70; `Prescriptions.LaterReviewWins`).

## Model

| member | source | states |
|---|---|---|
| Text.Trim | backend/src/models/Medicine.js:4-8 | the trimmed name is a contiguous slice of the input, with only whitespace cut from either end, and has no whitespace at either end |
| Text.TrimEmptyIffBlank | backend/src/models/Medicine.js:4-8 | a name trims to the empty string (and so fails `required`) exactly when it is all whitespace |
| Text.TrimFixedIffTrimmed | backend/src/models/Medicine.js:4-8 | trimming leaves a string unchanged exactly when neither end is whitespace |
| Text.TrimIdempotent | backend/src/models/Medicine.js:4-8 | saving an already-trimmed name again does not change it |
| Text.ParseInt | backend/src/controllers/medicineController.js:49-50 | `parseInt` gives NaN exactly when no digit follows the leading whitespace and the optional sign |
| Text.ParseIntOfDecimal | backend/src/controllers/medicineController.js:49-50 | the decimal numeral of any natural number, even with trailing text after a non-digit, parses back to that number |
| Text.ParseIntOfNegative | backend/src/controllers/medicineController.js:49-50 | a minus sign before a numeral parses to the negated number |
| Text.ParseIntSkipsLeadingBlank | backend/src/controllers/medicineController.js:49-50 | leading whitespace does not change what a page or limit parameter parses to |
| Models.ParseOrderStatus | backend/src/models/Order.js:35-39 | a status string is accepted exactly when it is one of the five enum names, and the accepted value's name is that string |
| Models.ParsePaymentMethod | backend/src/models/Order.js:40-44 | a payment method is accepted exactly when it is `cash` or `stripe`, and the accepted value's name is that string |
| Models.ParsePrescriptionStatus | backend/src/models/Prescription.js:13-17 | a prescription status is accepted exactly when it is pending, approved or rejected |
| Models.EnumNamesParse | backend/src/models/Order.js:35-44 | every enum value's name parses back to that value (name/parse round trip for all three enums) |
| Models.NewMedicine | backend/src/models/Medicine.js:4-41 | a medicine is created exactly when every required field is present with a non-blank trimmed name. The stored record has the trimmed name, the body's other fields, stock 0 when absent, the default image, and satisfies the schema invariant |
| Models.PatchMedicine | backend/src/controllers/medicineController.js:127-130 | an edit with validators keeps every field the patch leaves out, takes every field it sets, rejects a name that trims to nothing, and keeps the schema invariant |
| Models.PatchMedicineIdempotent | backend/src/controllers/medicineController.js:127-130 | applying the same successful edit a second time changes nothing |
| Models.NewOrder | backend/src/models/Order.js:3-48 | an order is created exactly when every line's quantity is at least 1, the address is non-empty and the payment method is absent or one of the enum names. It starts `pending` with the given owner, lines, total and prescription, and the payment method defaults to cash |
| Models.NewPrescription | backend/src/models/Prescription.js:4-22 | an upload record is created exactly when the image path is non-empty, and is then pending, unreviewed and owned by the uploader |
| Store.Visible | backend/src/controllers/orderController.js:97-101 | staff see the whole collection; anyone else sees exactly the records whose owner is themselves, as stored |
| OrderItems.LoopMeetsReference | backend/src/controllers/orderController.js:22-53 | the item loop, started at any item with the catalog as saved so far, ends in the reference outcome: each accepted item's stock falls by its quantity; the loop stops at the first item whose medicine is missing or whose remaining stock is short; earlier decrements stay saved |
| OrderItems.LoopLines | backend/src/controllers/orderController.js:22-53 | a loop run that gets through keeps the lines so far and adds one line per remaining item, with that item's medicine and quantity; a run that stops does so with a missing medicine or short stock |
| OrderItems.ProcessItems | backend/src/controllers/orderController.js:22-53 | on success there is one order line per requested item, in request order, with its medicine and quantity; a refusal is a 404 or a 400 |
| OrderItems.ProcessItemsAccepts | backend/src/controllers/orderController.js:22-53 | the loop accepts the request exactly when every item is admissible against the stock left by the items before it |
| OrderItems.ProcessItemsSuccess | backend/src/controllers/orderController.js:41-52 | on acceptance the lines snapshot each medicine's price and quantity in request order. The total is the sum of price times quantity, the prescription flag is set exactly when some item's medicine requires one, and each stock falls by the request's total demand for it |
| OrderItems.ProcessItemsFailure | backend/src/controllers/orderController.js:23-35 | on rejection the error is the 404 or 400 of the first inadmissible item, and only the items before it have been decremented |
| OrderItems.ProcessItemsKeepsKeys | backend/src/controllers/orderController.js:50-52 | the loop never adds or removes catalog entries |
| OrderItems.LoopKeepsStockNonNegative | backend/src/controllers/orderController.js:31-52 | a catalog with no negative stock keeps none, whether the loop accepts or stops early |
| OrderItems.LoopLeavesNamedStockNonNegative | backend/src/controllers/orderController.js:31-52 | after an accepted loop, every medicine the request named has non-negative stock |
| Orders.PrescriptionGate | backend/src/controllers/orderController.js:56-74 | when the order needs a prescription: a missing id is refused, as is one that is unknown or not the caller's ("Invalid prescription") or not approved. Otherwise the gate is open |
| Orders.CreateOrder | backend/src/controllers/orderController.js:10-89 | an empty item list is a 400 with nothing changed. Users, prescriptions and the set of medicines never change, and a failure stores no order. On success a valid, pending order for the caller is stored under the fresh id |
| Orders.CreateOrderSucceedsIff | backend/src/controllers/orderController.js:13-83 | an order is placed exactly when there are items, all are admissible, the prescription gate is open and the order passes schema validation |
| Orders.CreateOrderSuccess | backend/src/controllers/orderController.js:41-83 | a placed order's lines are the requested items in order with each medicine's price at that moment, its total is the sum of the lines, and it carries a prescription exactly when some item needs one, the caller's own approved one. The catalog is the reference decrement of the whole request |
| Orders.CreateOrderFailure | backend/src/controllers/orderController.js:13-74 | a refused order stores no order, and is one of three cases: no items, with nothing changed; the first rejected item's 404 or 400, with only the items before it decremented; or a prescription or validation refusal after every item was decremented |
| Orders.CreateOrderKeepsStockNonNegative | backend/src/controllers/orderController.js:31-52 | placing or failing to place an order never drives a non-negative stock below zero |
| Orders.CreateOrderKeepsOrdersValid | backend/src/controllers/orderController.js:76-83 | every stored order keeps satisfying the Order schema after any createOrder |
| Store.Error.Status | backend/src/controllers/authController.js:31-71 | a missing record answers 404 (here the medicine, order and prescription lookups at medicineController.js:91-95, orderController.js:25-29 and 119-123, prescriptionController.js:53-57), rejected credentials or refresh token 401 (authController.js:31-71), what Mongo or JavaScript throws 500 (the `split` of a non-string select or sort at medicineController.js:36 and 42, the negative skip at medicineController.js:55), and every other refusal 400 |
| Orders.GetOrders | backend/src/controllers/orderController.js:94-110 | staff get every order; a customer gets exactly their own |
| Orders.PlacedOrderIsListed | backend/src/controllers/orderController.js:76-101 | a just-placed order appears, as stored, in its owner's listing |
| Orders.UpdateOrderStatus | backend/src/controllers/orderController.js:115-139 | an unknown order is a 404 and an invalid status a 400, both with nothing changed. Otherwise only that order's status changes, to the requested one |
| Orders.UpdateOrderStatusIdempotent | backend/src/controllers/orderController.js:126-133 | setting the same status twice gives the same response and store as once |
| Orders.UpdateOrderStatusKeepsOrdersValid | backend/src/controllers/orderController.js:126-133 | a status update keeps every stored order valid |
| Orders.NegativeQuantityRaisesStock | backend/src/controllers/orderController.js:31-83 | a single-item request with a negative quantity for a medicine with non-negative stock is refused and stores no order, yet the medicine's stock has risen by the quantity's magnitude |
| Orders.RefusedPrescriptionKeepsDecrement | backend/src/controllers/orderController.js:51-61 | a single-item order for a prescription medicine without a prescription id is refused with 400 "Order contains prescription-only drugs. Please provide a prescription ID.", yet the stock has fallen by the ordered quantity |
| Orders.CreateOrderAtomic | backend/src/controllers/orderController.js:10-89 | all-or-nothing order placement: it succeeds exactly when createOrder does, with the same response and store. Every refusal leaves the store unchanged |
| Orders.AtomicNegativeQuantityLeavesStock | backend/src/controllers/orderController.js:31-83 | under all-or-nothing placement the negative-quantity request is refused and the store is unchanged |
| Prescriptions.UploadPrescription | backend/src/controllers/prescriptionController.js:8-22 | no file is a 400 with nothing changed. Upload succeeds exactly when the file has a path, and stores a pending, unreviewed prescription owned by the caller |
| Prescriptions.GetPrescriptions | backend/src/controllers/prescriptionController.js:27-43 | staff see every prescription; anyone else sees exactly their own |
| Prescriptions.ReviewPrescription | backend/src/controllers/prescriptionController.js:48-76 | an unknown id is a 404 and an invalid status a 400, both with nothing changed. Otherwise status, notes and reviewer are overwritten and the owner and image kept |
| Prescriptions.ReviewIdempotent | backend/src/controllers/prescriptionController.js:59-70 | repeating a review gives the same record and store |
| Prescriptions.LaterReviewWins | backend/src/controllers/prescriptionController.js:59-70 | a second review's result does not depend on an earlier one, and a valid second review leaves the same store as if it had been the only one: reviews are not one-shot |
| Prescriptions.UploadedIsPendingAndListed | backend/src/controllers/prescriptionController.js:13-16 | a fresh upload is in its owner's listing, and the order gate refuses it as not approved |
| Prescriptions.ApprovedUploadOpensGate | backend/src/controllers/orderController.js:63-73 | after staff approve an upload, the order gate opens for its owner and answers "Invalid prescription" to anyone else |
| Query.StripReserved | backend/src/controllers/medicineController.js:12-18 | the filter keeps exactly the query entries whose key is not select, sort, page, limit or search; a one-entry query is kept or dropped whole |
| Query.StripReservedAppend | backend/src/controllers/medicineController.js:12-18 | stripping a concatenation strips each part, so with the one-entry case the kept entries stay in query order |
| Query.StripReservedKeepsPlainQuery | backend/src/controllers/medicineController.js:12-18 | a query with no reserved key is passed through unchanged |
| Query.LookupAfterStrip | backend/src/controllers/medicineController.js:12-18 | looking up a non-reserved key in the filter gives what the original query had |
| Query.StripReservedIdempotent | backend/src/controllers/medicineController.js:12-18 | stripping twice is stripping once |
| Query.Stringify | backend/src/controllers/medicineController.js:21 | the JSON text of a string is a quoted literal, of an array a bracketed list, of an object a braced member list: the first and last characters name the kind of value |
| Query.RewriteInsertsDollars | backend/src/controllers/medicineController.js:24 | the rewrite is its input with `$` characters inserted: every input character is kept, in order, and nothing but `$` is added |
| Query.EscapePlain | backend/src/controllers/medicineController.js:21 | JSON-escaping a string with no quote, backslash or control character leaves it as it is |
| Query.RewriteGrows | backend/src/controllers/medicineController.js:24 | the rewrite is never shorter than its input, and strictly longer exactly when an operator word occurs |
| Query.RewriteKeepsText | backend/src/controllers/medicineController.js:24 | text with no operator word is left unchanged |
| Query.DropRewriteRoundTrip | backend/src/controllers/medicineController.js:24 | deleting every `$` that stands before an operator word in the rewrite gives back the input, for every text (a `$` already in the input is kept) |
| Query.RewriteUnchangedIff | backend/src/controllers/medicineController.js:24 | the rewrite changes a text exactly when it contains gt, gte, lt, lte or in as a whole word |
| Query.RewriteAppend | backend/src/controllers/medicineController.js:24 | the rewrite of two texts split at a non-word character is the two rewrites joined |
| Query.RewriteStringify | backend/src/controllers/medicineController.js:21-24 | rewriting the JSON text of a plain query equals writing out the query with every key and string value rewritten, so values are rewritten as well as keys |
| Query.FilterOfPlainQuery | backend/src/controllers/medicineController.js:12-27 | the filter text of a plain query is the JSON text of its non-reserved entries, with operator words `$`-prefixed in keys and values |
| Query.NestedOperatorFilter | backend/src/controllers/medicineController.js:12-27 | a query shaped like `price[gte]=10&page=2` becomes the filter `{"price":{"$gte":"10"}}`: page is dropped, the nested operator gains its `$`, and field and value words that are not operators stay as they are |
| Catalog.CommasToSpaces | backend/src/controllers/medicineController.js:35-43 | the select and sort strings keep every character except that commas become spaces |
| Catalog.Split | backend/src/controllers/medicineController.js:36 | `split` gives at least one piece, and no piece contains the separator |
| Catalog.JoinSplit | backend/src/controllers/medicineController.js:36 | joining the pieces of a split with the separator gives the text back |
| Catalog.SplitJoinIsCommasToSpaces | backend/src/controllers/medicineController.js:36-42 | `split(',').join(' ')` equals the character-wise replacement of commas by spaces |
| Catalog.QueryOf | backend/src/controllers/medicineController.js:27-46 | the query handed to Mongo carries the rewritten filter, the search term only when truthy, the space-separated select when truthy, and the space-separated sort or `-createdAt` |
| Catalog.PageParam | backend/src/controllers/medicineController.js:49-50 | a page or limit parameter is its parsed value when it parses to a non-zero number and the default otherwise |
| Catalog.PageOf | backend/src/controllers/medicineController.js:49 | the page is never 0, and is 1 when the parameter is absent or empty |
| Catalog.LimitOf | backend/src/controllers/medicineController.js:50 | the page size is never 0, and is 10 when the parameter is absent or empty |
| Catalog.PageParamOfNumeral | backend/src/controllers/medicineController.js:49-50 | a positive numeral, even followed by non-digit text, gives its value |
| Catalog.PageParamDefaults | backend/src/controllers/medicineController.js:49-50 | a missing, non-numeric or zero parameter gives the default |
| Catalog.Window | backend/src/controllers/medicineController.js:55 | skip then limit: exactly a negative skip is refused. Otherwise the result is the consecutive rows from the skip on: as many as the limit's magnitude when that many remain, all remaining rows when fewer remain or the limit is 0, none past the end |
| Catalog.GetMedicines | backend/src/controllers/medicineController.js:8-83 | a select or sort that is not a string is a 500; a negative skip is a 500. Otherwise the data is the page window of the matching rows, count is its length, `next` exists exactly when page*limit is below the unfiltered total, and `prev` exactly when the skip is positive |
| Catalog.GetMedicinesMatched | backend/src/controllers/medicineController.js:53-75 | corrected listing: the same response, except that `next` is computed against the number of matching rows |
| Catalog.MatchedNextIffNextPageNonEmpty | backend/src/controllers/medicineController.js:63-68 | with the correction and a positive page and limit, a `next` link is offered exactly when the next page holds at least one row |
| Catalog.NextLinkIgnoresFilter | backend/src/controllers/medicineController.js:53-68 | with two medicines, limit 1 and a filter matching none, the handler offers a `next` link to an empty page 2; the corrected listing offers none |
| Catalog.PaginationExample | backend/src/controllers/medicineController.js:49-79 | page 2 of 15 matching rows with the default limit holds rows 10 to 14, count 5, a `prev` link and no `next` |
| Catalog.RowOnItsPage | backend/src/controllers/medicineController.js:51-58 | every matching row appears on exactly the page its position puts it on |
| Catalog.GetMedicine | backend/src/controllers/medicineController.js:88-101 | a stored medicine is returned as it is; an unknown id is a 404 |
| Catalog.CreateMedicine | backend/src/controllers/medicineController.js:106-113 | a valid body stores a new medicine under the fresh id, with nothing else changed; an invalid body is a validation error with nothing changed |
| Catalog.UpdateMedicine | backend/src/controllers/medicineController.js:118-136 | an unknown id is a 404. A valid edit replaces only that medicine, by the patched record; an invalid edit changes nothing |
| Catalog.DeleteMedicine | backend/src/controllers/medicineController.js:141-156 | an unknown id is a 404. Otherwise exactly that medicine is removed and orders that name it are left alone |
| Catalog.MedicinePhotoUpload | backend/src/controllers/medicineController.js:161-182 | an unknown medicine is a 404, checked before the missing file (400). Otherwise only the medicine's image changes, to the stored file name |
| Catalog.CreateThenGet | backend/src/controllers/medicineController.js:88-113 | a created medicine is what a later get returns, and the catalog has grown by one |
| Catalog.UpdateThenGet | backend/src/controllers/medicineController.js:88-130 | after a successful edit, get returns the edited record |
| Catalog.UpdateIdempotent | backend/src/controllers/medicineController.js:118-136 | repeating a successful edit gives the same record and store |
| Catalog.DeleteThenGet | backend/src/controllers/medicineController.js:88-150 | after a delete, get is a 404 and a second delete is a 404 that changes nothing |
| Catalog.PhotoThenGet | backend/src/controllers/medicineController.js:161-176 | after a photo upload, get returns the medicine with the new image and every other field as before |
| Catalog.PriceEditKeepsPlacedOrders | backend/src/controllers/orderController.js:41-48 | orders keep the price snapshotted when they were placed: editing a medicine's price changes no stored order |
| Auth.FindByEmail | backend/src/controllers/authController.js:35 | under unique emails, the lookup finds the user with that email exactly when one exists |
| Auth.Issue | backend/src/controllers/authController.js:76-90 | both tokens are signed for the user at the current time. The refresh token is stored on that user, replacing the previous one, and nothing else changes |
| Auth.Register | backend/src/controllers/authController.js:9-21 | a taken email is refused with nothing changed. Otherwise one user is added with the hashed password and the requested role (customer by default), and is issued tokens |
| Auth.Login | backend/src/controllers/authController.js:26-49 | a missing email or password is a 400. Login succeeds exactly when some user has that email and the password matches its hash, and then issues that user's tokens. Every failure changes nothing |
| Auth.Refresh | backend/src/controllers/authController.js:54-73 | a missing token is a 400. Refresh succeeds exactly when the token verifies to an existing user whose stored token it is, and then rotates that user's tokens |
| Auth.DeleteUser | backend/src/controllers/authController.js:118-124 | always succeeds, whether or not the user exists. It removes exactly that id, and every other user and collection stays |
| Auth.LoginFailuresLookAlike | backend/src/controllers/authController.js:37-46 | an unknown email and a wrong password get the identical response and store |
| Auth.IssueKeepsEmailsUnique | backend/src/controllers/authController.js:82-83 | storing a refresh token keeps emails unique |
| Auth.RegisterKeepsEmailsUnique | backend/src/controllers/authController.js:13-18 | registration keeps emails unique |
| Auth.RegisterThenLogin | backend/src/controllers/authController.js:9-49 | a user who registers can then log in with the same email and password |
| Auth.LaterLoginRetiresToken | backend/src/controllers/authController.js:62-83 | once a later login has rotated the tokens, the earlier refresh token is refused, as long as the signer gave the two logins different tokens |
| Auth.LoginThenRefresh | backend/src/controllers/authController.js:54-83 | the refresh token a login hands out is accepted by refresh, which stores a newly signed one, provided it verifies to that user |
| Auth.RefreshRetiresUsedToken | backend/src/controllers/authController.js:62-83 | a refresh token that has been exchanged for a different one is refused the second time |
| Auth.GetStats | backend/src/controllers/authController.js:129-142 | the statistics are the number of users, medicines and orders in the store |
| Auth.RegisterCountsOneUser | backend/src/controllers/authController.js:129-142 | after a registration the statistics count exactly one more user and the same medicines and orders |
| Auth.PlacedOrderCounted | backend/src/controllers/authController.js:129-142 | after an order is placed the statistics count exactly one more order |
| Auth.DeleteUserKeepsOwnedRecords | backend/src/controllers/authController.js:118-124 | deleting a user leaves every order and prescription that user owns in place |

## Left out

- **Transport.** HTTP, Express routing, the `protect`/`authorize` middleware and the frontend are not modelled. Role gates appear as `requires`.
- **Users.** `User.js`, with its field validators, password-hashing hook and token methods, is not part of this model. Users are records with a name, email, password hash, role and stored refresh token.
- **Unique emails.** `Auth.Register` assumes a unique index on `email`.
- **Other account routes.** `getMe` and `getUsers` are single reads, not modelled.
- **Error mapping.** The shared error handler is not part of this model. Validation failures, duplicate emails, a negative skip and a non-string select or sort are given the statuses the `Error` datatype assigns.
- **Error messages.** Errors are identified by their `Error` constructor and status. The message texts of the responses are not modelled.
- **Population and listing order.** The listings are returned as maps from id to stored record. The source returns arrays in store order, and populates references: `getOrders` fills in each line's medicine name (null for a deleted medicine) and, for staff, the owner's name and email; the staff prescription listing fills in the owner's name and email (backend/src/controllers/orderController.js:98-100, backend/src/controllers/prescriptionController.js:31). The model proves which records are listed, not how they are rendered.
- **Typed request fields.** Quantities are integers, credentials are strings and `prescriptionId` is absent or present. A non-numeric or fractional quantity, a non-string credential and an empty-string prescription id cannot be expressed. Nor can a medicine body whose `price` or `stock` is not a number or whose `expiryDate` does not parse: `Medicine.create` and `findByIdAndUpdate` refuse those with a Mongoose cast error, which the model's numeric and date fields leave out.
- **Mongo evaluation.** How Mongo evaluates a find query (`$text` search, operators, projection, sort) is the parameter `run`. Nothing is proved about which documents match, and `run` is assumed not to fail.
- **JSON.parse.** The filter is modelled up to its JSON text; `JSON.parse` is not modelled.
- **Query-string parsing.** Query strings are taken already parsed into nested strings, arrays and objects.
- **Key order of `JSON.stringify`.** JavaScript writes an object's integer-like keys first, in ascending order, and the other keys after them in insertion order. `Query.Stringify` keeps insertion order throughout, so for a query such as `?b=1&5=2` the modelled filter text lists `b` before `5` where JavaScript lists `5` first. The keys and values of the filter are the same either way.
- **Malformed ids.** Ids are natural numbers, so the cast error a malformed ObjectId raises is not modelled.
- **Absent body fields.** Fields that `findByIdAndUpdate` would ignore because they are absent are not modelled. Review and status updates take present strings.
- **Timestamps.** `createdAt` and other timestamps are not modelled, except the signing time passed to `Auth.Crypto`.
- **Money.** Prices are integers in minor units. JavaScript's floating-point totals are not modelled.
- **Big numbers.** `parseInt` is exact on any digit string; the loss of precision beyond 2^53 is not modelled.
- **File storage.** The multer storage engine and file naming are not modelled. The upload is an optional record with a path, and the photo handler stores the given file name.
- **Concurrency.** Two requests are never interleaved: each handler runs to completion on one database value. `sendTokenResponse` is not awaited (backend/src/controllers/authController.js:20,48,69), so a failing save of the refresh token escapes the handler and no reply is sent; the `unhandledRejection` handler then closes the server and exits the process (backend/src/app.js:86-91), so one failed token save stops the whole service; the model stores the token and replies in one step.
- Query.FilterOfPlainQuery: the closed form is stated only for queries whose strings need no JSON escaping. Escaped text is covered by the general `Query.RewriteOperators` definition, not by a closed form.
- Auth.LaterLoginRetiresToken: proved only when the signer produced different tokens for the two logins, and when verifying the first token yields no user or the same user. A JWT signed twice in the same second with the same claims is the same token.
- Auth.RegisterThenLogin: assumes the hash library accepts a password against its own hash, which bcrypt promises but the model cannot see.
- Auth.RefreshRetiresUsedToken: proved only when the refresh signed a token different from the one it consumed, and verification of the used token later names the same user or none.
- Auth.LoginThenRefresh: assumes the token verifies at the refresh time. Expiry is the signer's business and is not modelled.

## Findings

| source | as written | input that shows it | evidently intended | confidence | as-written member | corrected member |
|---|---|---|---|---|---|---|
| backend/src/controllers/orderController.js:31-52 | the stock check `stock < quantity` and the saved decrement accept any quantity, including a negative one; only the Order schema's `min: 1` refuses it, after the stock has been saved | items `[{medicine: m, quantity: -5}]` with `m.stock == 0`: the stock becomes 5 and the order is refused | a refused order leaves stock unchanged; a negative quantity never raises stock | not executed | Orders.NegativeQuantityRaisesStock | Orders.CreateOrderAtomic |
| backend/src/controllers/orderController.js:51-61 | decrements are saved inside the item loop, before the prescription gate, and are not undone when the gate refuses the order | one item of a prescription-only medicine with stock 3, quantity 1, no prescription id: 400 "Order contains prescription-only drugs. Please provide a prescription ID.", stock 2 | a refused order leaves stock unchanged | not executed | Orders.RefusedPrescriptionKeepsDecrement | Orders.CreateOrderAtomic |
| backend/src/controllers/medicineController.js:53-68 | `total` counts every medicine, ignoring the filter, and `next` is offered when `page*limit < total` | two medicines, `?category=none&limit=1`, no match: an empty page with a `next` link to page 2 | `next` is offered only when another page of matching rows exists | not executed | Catalog.NextLinkIgnoresFilter | Catalog.GetMedicinesMatched |

=== FILE: auth.dfy ===
/**
 * The auth controller: registration, login, refresh-token rotation, the admin statistics and user
 * deletion. Password hashing and token signing are parameters (`Crypto`); a refresh token is
 * signed over the user id and the issue time in whole seconds, as a JWT's `iat` claim is.
 */
module Auth {
  import opened Wrappers
  import opened Models
  import opened Store
  import Orders

  /** The hashing and signing library calls, which the model does not look inside. */
  datatype Crypto = Crypto(
    hash: string -> string,
    matches: (string, string) -> bool,
    signAccess: (Id, int) -> Token,
    signRefresh: (Id, int) -> Token,
    verifyRefresh: (Token, int) -> Option<Id>)

  /** The body `sendTokenResponse` sends. */
  datatype Tokens = Tokens(access: Token, refresh: Token)

  /** The unique index on `email`: no two users share one. */
  predicate EmailsUnique(users: map<Id, User>)
  {
    forall a, b :: a in users && b in users && users[a].email == users[b].email ==> a == b
  }

  /** `User.findOne({email})` under the unique index: the one user with that email, if any. */
  function FindByEmail(users: map<Id, User>, email: string): (r: Option<Id>)
    requires EmailsUnique(users)
    ensures r.None? <==> forall id :: id in users ==> users[id].email != email
    ensures r.Some? ==> r.value in users && users[r.value].email == email
  {
    if exists id :: id in users && users[id].email == email then
      var id :| id in users && users[id].email == email;
      Some(id)
    else
      None
  }

  /**
   * `sendTokenResponse`: sign an access and a refresh token for the user at time `now`, store the
   * refresh token on the user (replacing the previous one) and send both.
   */
  function Issue(db: Db, crypto: Crypto, id: Id, now: int): (r: Reply<Tokens>)
    requires id in db.users
    ensures r.result.Ok?
    ensures r.result.value == Tokens(crypto.signAccess(id, now), crypto.signRefresh(id, now))
    ensures r.db.users.Keys == db.users.Keys
    ensures r.db.users[id] == db.users[id].(refreshToken := Some(r.result.value.refresh))
    ensures forall other :: other in db.users && other != id ==> r.db.users[other] == db.users[other]
    ensures r.db.medicines == db.medicines && r.db.prescriptions == db.prescriptions && r.db.orders == db.orders
  {
    var tokens := Tokens(crypto.signAccess(id, now), crypto.signRefresh(id, now));
    Reply(Ok(tokens), db.(users := db.users[id := db.users[id].(refreshToken := Some(tokens.refresh))]))
  }

  /** The registration body; an absent role takes the schema's default. */
  datatype Registration = Registration(name: string, email: string, password: string, role: Option<Role>)

  /**
   * `register`: a taken email is rejected by the unique index (400); otherwise the user is stored
   * with the hashed password and the role the body asked for, and tokens are issued.
   */
  function Register(db: Db, crypto: Crypto, body: Registration, newId: Id, now: int): (r: Reply<Tokens>)
    requires newId !in db.users
    ensures r.result.Err? <==> exists id :: id in db.users && db.users[id].email == body.email
    ensures r.result.Err? ==> r == Reply(Err(DuplicateEmail), db)
    ensures r.result.Ok? ==>
      && r.db.users.Keys == db.users.Keys + {newId}
      && r.db.users[newId] == User(body.name, body.email, crypto.hash(body.password),
                                   body.role.GetOr(Customer), Some(r.result.value.refresh))
      && r.result.value == Tokens(crypto.signAccess(newId, now), crypto.signRefresh(newId, now))
      && (forall id :: id in db.users ==> r.db.users[id] == db.users[id])
    ensures r.db.medicines == db.medicines && r.db.prescriptions == db.prescriptions && r.db.orders == db.orders
  {
    if exists id :: id in db.users && db.users[id].email == body.email then
      Reply(Err(DuplicateEmail), db)
    else
      var user := User(body.name, body.email, crypto.hash(body.password), body.role.GetOr(Customer), None);
      Issue(db.(users := db.users[newId := user]), crypto, newId, now)
  }

  /** `!value` for a body field: missing or the empty string. */
  predicate Blank(s: Option<string>)
  {
    s.None? || s.value == ""
  }

  /**
   * `login`: a missing email or password is a 400; an unknown email and a wrong password are the
   * same 401 "Invalid credentials", with nothing changed; otherwise tokens are issued to that user.
   */
  function Login(db: Db, crypto: Crypto, email: Option<string>, password: Option<string>, now: int): (r: Reply<Tokens>)
    requires EmailsUnique(db.users)
    ensures Blank(email) || Blank(password) ==> r == Reply(Err(MissingCredentials), db)
    ensures r.result.Err? ==> r.db == db && r.result.error in {MissingCredentials, InvalidCredentials}
    ensures r.result.Ok? <==>
      && !Blank(email) && !Blank(password)
      && exists id :: id in db.users && db.users[id].email == email.value
                      && crypto.matches(password.value, db.users[id].password)
    ensures r.result.Ok? ==>
      var id := FindByEmail(db.users, email.value).value;
      r == Issue(db, crypto, id, now)
  {
    if Blank(email) || Blank(password) then Reply(Err(MissingCredentials), db)
    else
      match FindByEmail(db.users, email.value)
      case None => Reply(Err(InvalidCredentials), db)
      case Some(id) =>
        if !crypto.matches(password.value, db.users[id].password) then Reply(Err(InvalidCredentials), db)
        else Issue(db, crypto, id, now)
  }

  /**
   * `refresh`: a missing token is a 400. A token that does not verify, names no user, or is not the
   * token stored on that user is a 401 "Invalid refresh token"; otherwise new tokens are issued.
   */
  function Refresh(db: Db, crypto: Crypto, token: Option<string>, now: int): (r: Reply<Tokens>)
    ensures Blank(token) ==> r == Reply(Err(RefreshTokenRequired), db)
    ensures r.result.Err? ==> r.db == db && r.result.error in {RefreshTokenRequired, InvalidRefreshToken}
    ensures r.result.Ok? <==>
      && !Blank(token)
      && var id := crypto.verifyRefresh(token.value, now);
         id.Some? && id.value in db.users && db.users[id.value].refreshToken == Some(token.value)
    ensures r.result.Ok? ==> r == Issue(db, crypto, crypto.verifyRefresh(token.value, now).value, now)
  {
    if Blank(token) then Reply(Err(RefreshTokenRequired), db)
    else
      match crypto.verifyRefresh(token.value, now)
      case None => Reply(Err(InvalidRefreshToken), db)
      case Some(id) =>
        if id !in db.users || db.users[id].refreshToken != Some(token.value) then Reply(Err(InvalidRefreshToken), db)
        else Issue(db, crypto, id, now)
  }

  /** The `getStats` body. */
  datatype Stats = Stats(users: nat, medicines: nat, orders: nat)

  /** `getStats` (admin only): the sizes of the user, medicine and order collections. */
  function GetStats(db: Db, caller: Caller): (r: Stats)
    requires caller.role == Admin
    ensures r.users == |db.users| && r.medicines == |db.medicines| && r.orders == |db.orders|
  {
    Stats(|db.users|, |db.medicines|, |db.orders|)
  }

  /**
   * `deleteUser` (admin only): `findByIdAndDelete` succeeds whether or not the id exists, and the
   * user's orders and prescriptions stay.
   */
  function DeleteUser(db: Db, caller: Caller, id: Id): (r: Reply<()>)
    requires caller.role == Admin
    ensures r.result == Ok(())
    ensures r.db.users.Keys == db.users.Keys - {id}
    ensures forall other :: other in r.db.users ==> r.db.users[other] == db.users[other]
    ensures r.db.medicines == db.medicines && r.db.prescriptions == db.prescriptions && r.db.orders == db.orders
  {
    Reply(Ok(()), db.(users := db.users - {id}))
  }

  // ---------------------------------------------------------------- properties

  /** An unknown email and a known email with the wrong password get exactly the same response. */
  lemma LoginFailuresLookAlike(db: Db, crypto: Crypto, unknown: string, known: string,
                               p1: string, p2: string, now: int)
    requires EmailsUnique(db.users)
    requires unknown != "" && known != "" && p1 != "" && p2 != ""
    requires forall id :: id in db.users ==> db.users[id].email != unknown
    requires exists id :: id in db.users && db.users[id].email == known && !crypto.matches(p2, db.users[id].password)
    ensures Login(db, crypto, Some(unknown), Some(p1), now) == Login(db, crypto, Some(known), Some(p2), now)
    ensures Login(db, crypto, Some(unknown), Some(p1), now) == Reply(Err(InvalidCredentials), db)
  {
    var id :| id in db.users && db.users[id].email == known && !crypto.matches(p2, db.users[id].password);
    assert FindByEmail(db.users, known) == Some(id);
  }

  /** Token bookkeeping touches only the `refreshToken` fields, so the unique index stays satisfied. */
  lemma IssueKeepsEmailsUnique(db: Db, crypto: Crypto, id: Id, now: int)
    requires id in db.users && EmailsUnique(db.users)
    ensures EmailsUnique(Issue(db, crypto, id, now).db.users)
  {
    var users := Issue(db, crypto, id, now).db.users;
    forall a, b | a in users && b in users && users[a].email == users[b].email
      ensures a == b
    {
      assert users[a].email == db.users[a].email && users[b].email == db.users[b].email;
    }
  }

  /** Registration keeps emails unique: a taken email is refused, a new one is added once. */
  lemma RegisterKeepsEmailsUnique(db: Db, crypto: Crypto, body: Registration, newId: Id, now: int)
    requires newId !in db.users && EmailsUnique(db.users)
    ensures EmailsUnique(Register(db, crypto, body, newId, now).db.users)
  {
    var users := Register(db, crypto, body, newId, now).db.users;
    forall a, b | a in users && b in users && users[a].email == users[b].email
      ensures a == b
    {
      if Register(db, crypto, body, newId, now).result.Ok? {
        assert a in db.users || a == newId;
        assert b in db.users || b == newId;
        assert users[newId].email == body.email;
        if a != newId {
          assert users[a].email == db.users[a].email;
        }
        if b != newId {
          assert users[b].email == db.users[b].email;
        }
      }
    }
  }

  /**
   * A registered user can log in with the password they registered with, provided the hash
   * library accepts a password against its own hash.
   */
  lemma RegisterThenLogin(db: Db, crypto: Crypto, body: Registration, newId: Id, t1: int, t2: int)
    requires newId !in db.users && EmailsUnique(db.users)
    requires body.email != "" && body.password != ""
    requires crypto.matches(body.password, crypto.hash(body.password))
    requires Register(db, crypto, body, newId, t1).result.Ok?
    ensures var reg := Register(db, crypto, body, newId, t1);
            EmailsUnique(reg.db.users)
            && Login(reg.db, crypto, Some(body.email), Some(body.password), t2).result
               == Ok(Tokens(crypto.signAccess(newId, t2), crypto.signRefresh(newId, t2)))
  {
    var reg := Register(db, crypto, body, newId, t1);
    RegisterKeepsEmailsUnique(db, crypto, body, newId, t1);
    assert reg.db.users[newId].email == body.email;
    assert FindByEmail(reg.db.users, body.email) == Some(newId);
  }

  /**
   * Logging in again retires the token of the earlier login: once the second login signs a
   * different refresh token, the first one is refused with a 401 as long as the verifier, when it
   * accepts the first token at all, reads back the user it was signed for. (Two logins in the same
   * second sign the same token, so the first one stays good.)
   */
  lemma LaterLoginRetiresToken(db: Db, crypto: Crypto, email: string, password: string, t1: int, t2: int, t3: int)
    requires EmailsUnique(db.users)
    requires Login(db, crypto, Some(email), Some(password), t1).result.Ok?
    requires var id := FindByEmail(db.users, email);
             var verified := crypto.verifyRefresh(crypto.signRefresh(id.value, t1), t3);
             crypto.signRefresh(id.value, t1) != "" && (verified.None? || verified == id)
    ensures var first := Login(db, crypto, Some(email), Some(password), t1);
            EmailsUnique(first.db.users)
            && Login(first.db, crypto, Some(email), Some(password), t2).result.Ok?
    ensures var first := Login(db, crypto, Some(email), Some(password), t1);
            var second := Login(first.db, crypto, Some(email), Some(password), t2);
            second.result.value.refresh != first.result.value.refresh ==>
              Refresh(second.db, crypto, Some(first.result.value.refresh), t3).result == Err(InvalidRefreshToken)
  {
    var first := Login(db, crypto, Some(email), Some(password), t1);
    var id := FindByEmail(db.users, email).value;
    IssueKeepsEmailsUnique(db, crypto, id, t1);
    assert first.db.users[id].email == email && first.db.users[id].password == db.users[id].password;
    assert FindByEmail(first.db.users, email) == Some(id);
    var second := Login(first.db, crypto, Some(email), Some(password), t2);
    var old_token := first.result.value.refresh;
    if second.result.value.refresh != old_token {
      var verified := crypto.verifyRefresh(old_token, t3);
      assert old_token == crypto.signRefresh(id, t1);
      assert FindByEmail(first.db.users, email) == Some(id);
      assert second.db.users[id].refreshToken == Some(second.result.value.refresh);
    }
  }

  /**
   * The token a login just issued refreshes, provided the verifier accepts it for that user: the
   * refresh issues a new pair and stores the new refresh token.
   */
  lemma LoginThenRefresh(db: Db, crypto: Crypto, email: string, password: string, t1: int, t2: int)
    requires EmailsUnique(db.users)
    requires Login(db, crypto, Some(email), Some(password), t1).result.Ok?
    requires var first := Login(db, crypto, Some(email), Some(password), t1);
             first.result.value.refresh != ""
             && crypto.verifyRefresh(first.result.value.refresh, t2) == FindByEmail(db.users, email)
    ensures var first := Login(db, crypto, Some(email), Some(password), t1);
            var id := FindByEmail(db.users, email).value;
            var again := Refresh(first.db, crypto, Some(first.result.value.refresh), t2);
            again.result == Ok(Tokens(crypto.signAccess(id, t2), crypto.signRefresh(id, t2)))
            && again.db.users[id].refreshToken == Some(crypto.signRefresh(id, t2))
  {
  }

  /**
   * A refresh token works once: after a successful refresh that signs a different token, the
   * used one is refused with a 401, as long as the verifier reads back the same user for it.
   */
  lemma RefreshRetiresUsedToken(db: Db, crypto: Crypto, token: string, t1: int, t2: int)
    requires Refresh(db, crypto, Some(token), t1).result.Ok?
    requires var id := crypto.verifyRefresh(token, t1).value;
             var later := crypto.verifyRefresh(token, t2);
             crypto.signRefresh(id, t1) != token && (later.None? || later == Some(id))
    ensures var after := Refresh(db, crypto, Some(token), t1);
            Refresh(after.db, crypto, Some(token), t2).result == Err(InvalidRefreshToken)
  {
  }

  /** Registration adds one user to the statistics and leaves the other counts. */
  lemma RegisterCountsOneUser(db: Db, admin: Caller, crypto: Crypto, body: Registration, newId: Id, now: int)
    requires admin.role == Admin && newId !in db.users
    requires Register(db, crypto, body, newId, now).result.Ok?
    ensures var before, after := GetStats(db, admin), GetStats(Register(db, crypto, body, newId, now).db, admin);
            after == before.(users := before.users + 1)
  {
    var after := Register(db, crypto, body, newId, now).db;
    assert after.users.Keys == db.users.Keys + {newId};
    assert |after.users.Keys| == |db.users.Keys| + 1;
  }

  /** A placed order adds one to the order count of the statistics. */
  lemma PlacedOrderCounted(db: Db, admin: Caller, caller: Caller, req: Orders.OrderRequest, newId: Id)
    requires admin.role == Admin && newId !in db.orders
    requires Orders.CreateOrder(db, caller, req, newId).result.Ok?
    ensures var before, after := GetStats(db, admin), GetStats(Orders.CreateOrder(db, caller, req, newId).db, admin);
            after.orders == before.orders + 1 && after.users == before.users && after.medicines == before.medicines
  {
    var r := Orders.CreateOrder(db, caller, req, newId);
    assert r.db.orders == db.orders[newId := r.result.value];
    assert r.db.orders.Keys == db.orders.Keys + {newId};
    assert r.db.medicines.Keys == db.medicines.Keys;
    assert |r.db.medicines| == |r.db.medicines.Keys| == |db.medicines.Keys| == |db.medicines|;
  }

  /** Deleting a user leaves the orders and prescriptions that user owns in place. */
  lemma DeleteUserKeepsOwnedRecords(db: Db, admin: Caller, id: Id)
    requires admin.role == Admin
    ensures var after := DeleteUser(db, admin, id).db;
            && (forall o :: o in db.orders && db.orders[o].user == id ==> o in after.orders)
            && (forall p :: p in db.prescriptions && db.prescriptions[p].user == id ==> p in after.prescriptions)
            && id !in after.users
  {
  }
}

=== FILE: catalog.dfy ===
/**
 * The medicine controller: the paginated listing (`getMedicines`) and the catalog operations
 * (`getMedicine`, `createMedicine`, `updateMedicine`, `deleteMedicine`, `medicinePhotoUpload`)
 * as operations on the medicine map.
 */
module Catalog {
  import opened Wrappers
  import opened Models
  import opened Store
  import opened Query
  import Text

  // ---------------------------------------------------------------- the listing query

  /** What the handler hands to Mongo: the filter text, the optional text search, projection and sort. */
  datatype CatalogQuery = CatalogQuery(filter: string, search: Option<Value>, select: Option<string>, sort: string)

  /** `s.split(sep)` for a one-character separator: the pieces between separators, empty ones included. */
  function Split(s: string, sep: char): (r: seq<string>)
    ensures |r| >= 1
    ensures forall k :: 0 <= k < |r| ==> sep !in r[k]
  {
    if |s| == 0 then [""]
    else if s[0] == sep then [""] + Split(s[1..], sep)
    else
      var rest := Split(s[1..], sep);
      [[s[0]] + rest[0]] + rest[1..]
  }

  /** `parts.join(sep)`. */
  function Join(parts: seq<string>, sep: string): string
  {
    if |parts| == 0 then ""
    else if |parts| == 1 then parts[0]
    else parts[0] + sep + Join(parts[1..], sep)
  }

  /** Joining, when the first piece gains a leading character, gains that character in front. */
  lemma JoinExtendFirst(c: char, parts: seq<string>, sep: string)
    requires |parts| >= 1
    ensures Join([[c] + parts[0]] + parts[1..], sep) == [c] + Join(parts, sep)
  {
    var longer := [[c] + parts[0]] + parts[1..];
    assert longer[0] == [c] + parts[0];
    if |parts| > 1 {
      assert longer[1..] == parts[1..];
      var tail := Join(parts[1..], sep);
      assert ([c] + parts[0]) + sep + tail == [c] + (parts[0] + sep + tail);
    }
  }

  /** Joining with an empty first piece puts a separator in front. */
  lemma JoinEmptyFirst(parts: seq<string>, sep: string)
    requires |parts| >= 1
    ensures Join([""] + parts, sep) == sep + Join(parts, sep)
  {
    assert ([""] + parts)[1..] == parts;
  }

  /** Splitting on a separator and joining with it again gives the text back. */
  lemma {:induction false} JoinSplit(s: string, sep: char)
    ensures Join(Split(s, sep), [sep]) == s
    decreases |s|
  {
    if |s| > 0 {
      JoinSplit(s[1..], sep);
      var rest := Split(s[1..], sep);
      if s[0] == sep {
        JoinEmptyFirst(rest, [sep]);
      } else {
        JoinExtendFirst(s[0], rest, [sep]);
      }
      assert [s[0]] + s[1..] == s;
    }
  }

  /** `s.split(',').join(' ')` is the character-wise replacement of every comma by a space. */
  lemma {:induction false} SplitJoinIsCommasToSpaces(s: string)
    ensures Join(Split(s, ','), " ") == CommasToSpaces(s)
    decreases |s|
  {
    if |s| > 0 {
      SplitJoinIsCommasToSpaces(s[1..]);
      var rest := Split(s[1..], ',');
      assert CommasToSpaces(s) == [if s[0] == ',' then ' ' else s[0]] + CommasToSpaces(s[1..]);
      if s[0] == ',' {
        JoinEmptyFirst(rest, " ");
      } else {
        JoinExtendFirst(s[0], rest, " ");
      }
    }
  }

  /** `s.split(',').join(' ')`: every comma becomes a space. */
  function CommasToSpaces(s: string): (r: string)
    ensures |r| == |s|
    ensures forall k :: 0 <= k < |s| && s[k] != ',' ==> r[k] == s[k]
    ensures forall k :: 0 <= k < |s| && s[k] == ',' ==> r[k] == ' '
  {
    seq(|s|, k requires 0 <= k < |s| => if s[k] == ',' then ' ' else s[k])
  }

  /** The query parameter `select` or `sort` is present and is not a plain string, so `.split` throws. */
  predicate NotSplittable(v: Option<Value>)
  {
    Truthy(v) && !v.value.Str?
  }

  /**
   * The Mongo query the handler builds: the filter from the stripped and rewritten query, a text
   * search when `search` is truthy, the projection from `select`, and the sort from `sort`
   * (newest first when absent).
   */
  function QueryOf(q: Params): (r: CatalogQuery)
    requires !NotSplittable(Lookup(q, "select")) && !NotSplittable(Lookup(q, "sort"))
    ensures r.filter == FilterText(q)
    ensures r.search.Some? <==> Truthy(Lookup(q, "search"))
    ensures r.search.Some? ==> r.search == Lookup(q, "search")
    ensures r.select.Some? <==> Truthy(Lookup(q, "select"))
    ensures r.select.Some? ==> r.select.value == CommasToSpaces(Lookup(q, "select").value.text)
    ensures !Truthy(Lookup(q, "sort")) ==> r.sort == "-createdAt"
    ensures Truthy(Lookup(q, "sort")) ==> r.sort == CommasToSpaces(Lookup(q, "sort").value.text)
  {
    var search := Lookup(q, "search");
    var select := Lookup(q, "select");
    var sort := Lookup(q, "sort");
    CatalogQuery(
      FilterText(q),
      if Truthy(search) then search else None,
      if Truthy(select) then Some(CommasToSpaces(select.value.text)) else None,
      if Truthy(sort) then CommasToSpaces(sort.value.text) else "-createdAt")
  }

  // ---------------------------------------------------------------- pagination

  /**
   * `parseInt(x, 10) || fallback`: the parameter read as an integer, where a missing parameter, one
   * without leading digits (NaN) and zero all give the fallback.
   */
  function PageParam(v: Option<Value>, fallback: int): (r: int)
    ensures v.None? ==> r == fallback
    ensures v.Some? ==>
      var parsed := Text.ParseInt(ToJsString(v.value));
      r == (if parsed.None? || parsed.value == 0 then fallback else parsed.value)
    ensures fallback != 0 ==> r != 0
  {
    match v
    case None => fallback
    case Some(x) =>
      match Text.ParseInt(ToJsString(x))
      case None => fallback
      case Some(n) => if n == 0 then fallback else n
  }

  /** A decimal numeral is read as its number ("2", "2abc", "2 " all give 2). */
  lemma PageParamOfNumeral(n: nat, rest: string, fallback: int)
    requires n > 0
    requires |rest| == 0 || !Text.IsDigit(rest[0])
    ensures PageParam(Some(Str(Text.NatToString(n) + rest)), fallback) == n
  {
    Text.ParseIntOfDecimal(n, rest);
  }

  /** Absent, empty, zero and non-numeric parameters all fall back to the default. */
  lemma PageParamDefaults(fallback: int)
    ensures PageParam(None, fallback) == fallback
    ensures PageParam(Some(Str("")), fallback) == fallback
    ensures PageParam(Some(Str("0")), fallback) == fallback
    ensures PageParam(Some(Str("ten")), fallback) == fallback
  {
    assert Text.DigitRun("ten") == 0;
    Text.ParseIntOfDecimal(0, "");
    assert Text.NatToString(0) == "0";
  }

  /** The requested page (default 1): never zero, and 1 when the parameter is absent or empty. */
  function PageOf(q: Params): (r: int)
    ensures r != 0
    ensures !Truthy(Lookup(q, "page")) ==> r == 1
  {
    PageParam(Lookup(q, "page"), 1)
  }

  /** The requested page size (default 10): never zero, and 10 when the parameter is absent or empty. */
  function LimitOf(q: Params): (r: int)
    ensures r != 0
    ensures !Truthy(Lookup(q, "limit")) ==> r == 10
  {
    PageParam(Lookup(q, "limit"), 10)
  }

  function Abs(n: int): nat
  {
    if n < 0 then -n else n
  }

  /**
   * `.skip(start).limit(limit)` on the matching rows: Mongo refuses a negative skip; a negative limit
   * returns at most its magnitude, and a limit of zero means no limit.
   */
  function Window(rows: seq<Medicine>, start: int, limit: int): (r: Result<seq<Medicine>, Error>)
    ensures r.Err? <==> start < 0
    ensures r.Err? ==> r.error == NegativeSkip
    ensures r.Ok? && limit != 0 ==> |r.value| <= Abs(limit)
    ensures r.Ok? ==> |r.value| <= |rows| && (start >= |rows| ==> r.value == [])
    ensures r.Ok? ==> forall k :: 0 <= k < |r.value| ==> start + k < |rows| && r.value[k] == rows[start + k]
    ensures r.Ok? && start + Abs(limit) <= |rows| && limit != 0 ==> |r.value| == Abs(limit)
    ensures r.Ok? ==> |r.value| == if start >= |rows| then 0
                                   else if limit == 0 || start + Abs(limit) > |rows| then |rows| - start
                                   else Abs(limit)
  {
    if start < 0 then Err(NegativeSkip)
    else
      var from := if start < |rows| then start else |rows|;
      var to := if limit == 0 || from + Abs(limit) > |rows| then |rows| else from + Abs(limit);
      Ok(rows[from..to])
  }

  /** The `pagination.next` / `pagination.prev` entries. */
  datatype PageLink = PageLink(page: int, limit: int)

  /** The response body of the listing. */
  datatype Listing = Listing(count: nat, next: Option<PageLink>, prev: Option<PageLink>, data: seq<Medicine>)

  /**
   * `getMedicines`. `run` is Mongo: it returns every medicine the query matches, in the query's sort
   * order. A `select` or `sort` parameter that is an array or object makes `.split` throw (a 500), and
   * a negative skip makes the query fail; otherwise the page is the window of the matching rows, and
   * the links compare against the number of all medicines, filter or not.
   */
  function GetMedicines(db: Db, q: Params, run: CatalogQuery -> seq<Medicine>): (r: Result<Listing, Error>)
    ensures NotSplittable(Lookup(q, "select")) ==> r == Err(NotText("select"))
    ensures !NotSplittable(Lookup(q, "select")) && NotSplittable(Lookup(q, "sort")) ==> r == Err(NotText("sort"))
    ensures r.Ok? <==>
      && !NotSplittable(Lookup(q, "select")) && !NotSplittable(Lookup(q, "sort"))
      && (PageOf(q) - 1) * LimitOf(q) >= 0
    ensures r.Ok? ==>
      var page, limit := PageOf(q), LimitOf(q);
      && Window(run(QueryOf(q)), (page - 1) * limit, limit) == Ok(r.value.data)
      && r.value.count == |r.value.data| <= Abs(limit)
      && (r.value.next.Some? <==> page * limit < |db.medicines|)
      && (r.value.next.Some? ==> r.value.next.value == PageLink(page + 1, limit))
      && (r.value.prev.Some? <==> (page - 1) * limit > 0)
      && (r.value.prev.Some? ==> r.value.prev.value == PageLink(page - 1, limit))
  {
    if NotSplittable(Lookup(q, "select")) then Err(NotText("select"))
    else if NotSplittable(Lookup(q, "sort")) then Err(NotText("sort"))
    else
      var page, limit := PageOf(q), LimitOf(q);
      var start, end := (page - 1) * limit, page * limit;
      var total := |db.medicines|;
      match Window(run(QueryOf(q)), start, limit)
      case Err(e) => Err(e)
      case Ok(rows) =>
        Ok(Listing(
          |rows|,
          if end < total then Some(PageLink(page + 1, limit)) else None,
          if start > 0 then Some(PageLink(page - 1, limit)) else None,
          rows))
  }

  /**
   * The listing with the links compared against the number of MATCHING medicines, which is what
   * decides whether a further page has anything on it.
   */
  function GetMedicinesMatched(db: Db, q: Params, run: CatalogQuery -> seq<Medicine>): (r: Result<Listing, Error>)
    ensures r.Ok? <==> GetMedicines(db, q, run).Ok?
    ensures r.Err? ==> r == GetMedicines(db, q, run)
    ensures r.Ok? ==>
      && r.value.data == GetMedicines(db, q, run).value.data
      && r.value.prev == GetMedicines(db, q, run).value.prev
      && (r.value.next.Some? <==> PageOf(q) * LimitOf(q) < |run(QueryOf(q))|)
  {
    match GetMedicines(db, q, run)
    case Err(e) => Err(e)
    case Ok(listing) =>
      var page, limit := PageOf(q), LimitOf(q);
      Ok(listing.(next := if page * limit < |run(QueryOf(q))| then Some(PageLink(page + 1, limit)) else None))
  }

  /**
   * With the matching count, a `next` link is offered exactly when the next page has rows on it
   * (for a positive page size).
   */
  lemma MatchedNextIffNextPageNonEmpty(db: Db, q: Params, run: CatalogQuery -> seq<Medicine>)
    requires GetMedicinesMatched(db, q, run).Ok?
    requires LimitOf(q) > 0
    ensures var page, limit := PageOf(q), LimitOf(q);
            var next := Window(run(QueryOf(q)), page * limit, limit);
            next.Ok? && (GetMedicinesMatched(db, q, run).value.next.Some? <==> next.value != [])
  {
    var page, limit := PageOf(q), LimitOf(q);
    var rows := run(QueryOf(q));
    assert (page - 1) * limit >= 0;
    PositivePage(page, limit);
    var next := Window(rows, page * limit, limit);
    if page * limit < |rows| {
      assert next.value[0] == rows[page * limit];
    }
  }

  /** A page whose skip is not negative, at a positive page size, is a page from 1 on. */
  lemma PositivePage(page: int, limit: int)
    requires limit > 0 && (page - 1) * limit >= 0
    ensures page >= 1 && page * limit >= limit
  {
  }

  /**
   * As written, the links compare against all medicines: with two medicines in the store, page
   * size 1 and a filter that matches nothing, the listing is empty and still offers page 2.
   */
  lemma NextLinkIgnoresFilter(db: Db, q: Params, run: CatalogQuery -> seq<Medicine>)
    requires |db.medicines| == 2
    requires q == [Field("limit", Str("1")), Field("category", Str("none"))]
    requires run(QueryOf(q)) == []
    ensures var r := GetMedicines(db, q, run);
            && r.Ok? && r.value.data == [] && r.value.next == Some(PageLink(2, 1))
            && GetMedicinesMatched(db, q, run).value.next.None?
  {
    LimitOneQuery(q);
    assert Window([], 0, 1) == Ok([]);
  }

  /** `?limit=1&category=none` asks for page 1 at one row per page, without projection or sort. */
  lemma LimitOneQuery(q: Params)
    requires q == [Field("limit", Str("1")), Field("category", Str("none"))]
    ensures !NotSplittable(Lookup(q, "select")) && !NotSplittable(Lookup(q, "sort"))
    ensures PageOf(q) == 1 && LimitOf(q) == 1
  {
    assert Lookup(q, "select").None? && Lookup(q, "sort").None?;
    assert Lookup(q, "page").None?;
    assert Lookup(q, "limit") == Some(Str("1"));
    assert Text.NatToString(1) + "" == "1";
    PageParamOfNumeral(1, "", 10);
  }

  /** Page 2 of 15 rows at 10 per page: rows 10 to 14, a `prev` link and no `next` link. */
  lemma PaginationExample(db: Db, rows: seq<Medicine>)
    requires |db.medicines| == 15 && |rows| == 15
    ensures var q := [Field("page", Str("2"))];
            var r := GetMedicines(db, q, (_: CatalogQuery) => rows);
            && r.Ok? && r.value.data == rows[10..15] && r.value.count == 5
            && r.value.next.None? && r.value.prev == Some(PageLink(1, 10))
  {
    var q := [Field("page", Str("2"))];
    assert Lookup(q, "select").None? && Lookup(q, "sort").None? && Lookup(q, "limit").None?;
    assert Lookup(q, "page") == Some(Str("2"));
    assert Text.NatToString(2) + "" == "2";
    PageParamOfNumeral(2, "", 1);
    assert PageOf(q) == 2 && LimitOf(q) == 10;
  }

  /**
   * The pages tile the matching rows: with a positive page size, row `i` is row `i % limit` of
   * page `i / limit + 1`.
   */
  lemma RowOnItsPage(rows: seq<Medicine>, limit: int, i: int)
    requires limit > 0 && 0 <= i < |rows|
    ensures var page := i / limit + 1;
            var w := Window(rows, (page - 1) * limit, limit);
            w.Ok? && i % limit < |w.value| && w.value[i % limit] == rows[i]
  {
    var page := i / limit + 1;
    var start := (page - 1) * limit;
    assert start == (i / limit) * limit;
    assert start + i % limit == i;
    assert 0 <= start;
    var w := Window(rows, start, limit);
    assert |w.value| == (if start + limit > |rows| then |rows| - start else limit);
  }

  // ---------------------------------------------------------------- single medicines

  /** `getMedicine`: the stored entry, or 404. */
  function GetMedicine(db: Db, id: Id): (r: Result<Medicine, Error>)
    ensures r.Ok? <==> id in db.medicines
    ensures r.Ok? ==> r.value == db.medicines[id]
    ensures r.Err? ==> r.error == MedicineNotFound(id) && r.error.Status() == 404
  {
    if id in db.medicines then Ok(db.medicines[id]) else Err(MedicineNotFound(id))
  }

  /** Every stored medicine satisfies the schema. */
  predicate CatalogValid(db: Db)
  {
    forall id :: id in db.medicines ==> db.medicines[id].Valid()
  }

  /** Everything but the medicine collection is the same. */
  predicate SameOutsideCatalog(db: Db, db': Db)
  {
    db'.users == db.users && db'.prescriptions == db.prescriptions && db'.orders == db.orders
  }

  /** `createMedicine` (admin only): the body passes the schema and is stored under a fresh id, or it is a 400. */
  function CreateMedicine(db: Db, caller: Caller, body: MedicineFields, newId: Id): (r: Reply<Medicine>)
    requires caller.role == Admin
    requires newId !in db.medicines
    ensures r.result.Ok? <==> NewMedicine(body).Some?
    ensures r.result.Err? ==> r.result.error == ValidationFailed && r.db == db
    ensures r.result.Ok? ==>
      && r.result.value == NewMedicine(body).value
      && r.db.medicines == db.medicines[newId := r.result.value]
    ensures SameOutsideCatalog(db, r.db)
    ensures CatalogValid(db) ==> CatalogValid(r.db)
  {
    var made := NewMedicine(body);
    if made.None? then Reply(Err(ValidationFailed), db)
    else Reply(Ok(made.value), db.(medicines := db.medicines[newId := made.value]))
  }

  /**
   * `updateMedicine` (admin only): 404 for an unknown id; otherwise the patch is applied with the
   * update validators, a failing one being a 400 that stores nothing.
   */
  function UpdateMedicine(db: Db, caller: Caller, id: Id, patch: MedicineFields): (r: Reply<Medicine>)
    requires caller.role == Admin
    ensures id !in db.medicines ==> r == Reply(Err(MedicineNotFound(id)), db)
    ensures r.result.Err? ==> r.db == db
    ensures r.result.Ok? <==> id in db.medicines && PatchMedicine(db.medicines[id], patch).Some?
    ensures r.result.Ok? ==>
      && r.result.value == PatchMedicine(db.medicines[id], patch).value
      && r.db.medicines == db.medicines[id := r.result.value]
    ensures SameOutsideCatalog(db, r.db)
    ensures CatalogValid(db) ==> CatalogValid(r.db)
  {
    if id !in db.medicines then Reply(Err(MedicineNotFound(id)), db)
    else
      match PatchMedicine(db.medicines[id], patch)
      case None => Reply(Err(ValidationFailed), db)
      case Some(m) => Reply(Ok(m), db.(medicines := db.medicines[id := m]))
  }

  /** `deleteMedicine` (admin only): 404 for an unknown id; otherwise exactly that entry is removed. */
  function DeleteMedicine(db: Db, caller: Caller, id: Id): (r: Reply<()>)
    requires caller.role == Admin
    ensures r.result.Ok? <==> id in db.medicines
    ensures r.result.Err? ==> r == Reply(Err(MedicineNotFound(id)), db)
    ensures r.result.Ok? ==>
      && r.db.medicines.Keys == db.medicines.Keys - {id}
      && (forall k :: k in r.db.medicines ==> r.db.medicines[k] == db.medicines[k])
    ensures SameOutsideCatalog(db, r.db)
    ensures CatalogValid(db) ==> CatalogValid(r.db)
  {
    if id !in db.medicines then Reply(Err(MedicineNotFound(id)), db)
    else Reply(Ok(()), db.(medicines := db.medicines - {id}))
  }

  /**
   * `medicinePhotoUpload` (admin only): the id is checked before the file, so an unknown id is a 404
   * even without a file; then a missing file is a 400; otherwise only the image becomes the stored
   * file's name, which is also the response.
   */
  function MedicinePhotoUpload(db: Db, caller: Caller, id: Id, file: Option<Upload>): (r: Reply<string>)
    requires caller.role == Admin
    ensures id !in db.medicines ==> r == Reply(Err(MedicineNotFound(id)), db)
    ensures id in db.medicines && file.None? ==> r == Reply(Err(FileRequired), db)
    ensures r.result.Ok? <==> id in db.medicines && file.Some?
    ensures r.result.Ok? ==>
      && r.result.value == file.value.filename
      && r.db.medicines == db.medicines[id := db.medicines[id].(image := file.value.filename)]
    ensures SameOutsideCatalog(db, r.db)
    ensures CatalogValid(db) ==> CatalogValid(r.db)
  {
    if id !in db.medicines then Reply(Err(MedicineNotFound(id)), db)
    else if file.None? then Reply(Err(FileRequired), db)
    else
      var name := file.value.filename;
      Reply(Ok(name), db.(medicines := db.medicines[id := db.medicines[id].(image := name)]))
  }

  // ---------------------------------------------------------------- round trips

  /** A created medicine is what `getMedicine` then returns, and the catalog grew by one. */
  lemma CreateThenGet(db: Db, caller: Caller, body: MedicineFields, newId: Id)
    requires caller.role == Admin && newId !in db.medicines
    requires CreateMedicine(db, caller, body, newId).result.Ok?
    ensures var r := CreateMedicine(db, caller, body, newId);
            && GetMedicine(r.db, newId) == r.result
            && |r.db.medicines| == |db.medicines| + 1
  {
  }

  /** An updated medicine is what `getMedicine` then returns. */
  lemma UpdateThenGet(db: Db, caller: Caller, id: Id, patch: MedicineFields)
    requires caller.role == Admin
    requires UpdateMedicine(db, caller, id, patch).result.Ok?
    ensures var r := UpdateMedicine(db, caller, id, patch);
            GetMedicine(r.db, id) == r.result
  {
  }

  /** Sending the same update twice leaves the catalog as sending it once. */
  lemma UpdateIdempotent(db: Db, caller: Caller, id: Id, patch: MedicineFields)
    requires caller.role == Admin
    ensures var once := UpdateMedicine(db, caller, id, patch);
            var twice := UpdateMedicine(once.db, caller, id, patch);
            twice.db == once.db && twice.result == once.result
  {
    var once := UpdateMedicine(db, caller, id, patch);
    if once.result.Ok? {
      PatchMedicineIdempotent(db.medicines[id], patch);
      assert once.db.medicines[id] == once.result.value;
    }
  }

  /** After a delete the id is unknown, and a second delete is a 404 that changes nothing. */
  lemma DeleteThenGet(db: Db, caller: Caller, id: Id)
    requires caller.role == Admin
    ensures var r := DeleteMedicine(db, caller, id);
            && GetMedicine(r.db, id) == Err(MedicineNotFound(id))
            && DeleteMedicine(r.db, caller, id) == Reply(Err(MedicineNotFound(id)), r.db)
  {
  }

  /** A photo upload changes the image and nothing else that `getMedicine` shows. */
  lemma PhotoThenGet(db: Db, caller: Caller, id: Id, file: Option<Upload>)
    requires caller.role == Admin
    requires MedicinePhotoUpload(db, caller, id, file).result.Ok?
    ensures var r := MedicinePhotoUpload(db, caller, id, file);
            var before, after := db.medicines[id], GetMedicine(r.db, id).value;
            && after.image == file.value.filename
            && after.(image := before.image) == before
  {
  }

  /**
   * A price edit does not reach orders already placed: every stored order, with the unit prices it
   * recorded, is still there.
   */
  lemma PriceEditKeepsPlacedOrders(db: Db, caller: Caller, id: Id, price: int, order: Id)
    requires caller.role == Admin
    requires order in db.orders
    ensures var patch := MedicineFields(None, None, Some(price), None, None, None, None, None, None);
            var r := UpdateMedicine(db, caller, id, patch);
            order in r.db.orders && r.db.orders[order].items == db.orders[order].items
  {
  }
}

=== FILE: models.dfy ===
/**
 * The three Mongoose schemas of the backend (Medicine, Order, Prescription) and the user record
 * the auth controller works on: the record shapes, their enums, defaults and `required` rules.
 */
module Models {
  import opened Wrappers
  import Text

  /** A document id (a Mongo ObjectId). */
  type Id = nat

  /** A signed token, as the signing library prints it. */
  type Token = string

  datatype Role = Customer | Doctor | Admin {
    /** Staff see every order and prescription and may change their status. */
    predicate IsStaff()
    {
      this == Admin || this == Doctor
    }
  }

  /** The authenticated caller of a request (`req.user`). */
  datatype Caller = Caller(id: Id, role: Role)

  /** A file the upload middleware stored for the request (`req.file`). */
  datatype Upload = Upload(filename: string, path: string)

  // ---------------------------------------------------------------- enums

  datatype OrderStatus = Pending | Confirmed | Shipped | Delivered | Cancelled {
    function Name(): string
    {
      match this
      case Pending => "pending"
      case Confirmed => "confirmed"
      case Shipped => "shipped"
      case Delivered => "delivered"
      case Cancelled => "cancelled"
    }
  }

  /** The `enum` validator of `Order.status`: only the five listed spellings are accepted. */
  function ParseOrderStatus(s: string): (r: Option<OrderStatus>)
    ensures r.Some? ==> r.value.Name() == s
    ensures r.None? ==> forall st: OrderStatus :: st.Name() != s
  {
    if s == "pending" then Some(Pending)
    else if s == "confirmed" then Some(Confirmed)
    else if s == "shipped" then Some(Shipped)
    else if s == "delivered" then Some(Delivered)
    else if s == "cancelled" then Some(Cancelled)
    else None
  }

  datatype PaymentMethod = Cash | Stripe {
    function Name(): string
    {
      match this
      case Cash => "cash"
      case Stripe => "stripe"
    }
  }

  /** The `enum` validator of `Order.paymentMethod`. */
  function ParsePaymentMethod(s: string): (r: Option<PaymentMethod>)
    ensures r.Some? ==> r.value.Name() == s
    ensures r.None? ==> forall m: PaymentMethod :: m.Name() != s
  {
    if s == "cash" then Some(Cash) else if s == "stripe" then Some(Stripe) else None
  }

  /** The schema's "pending" status; named apart from `OrderStatus.Pending`, which shares the module. */
  datatype PrescriptionStatus = Waiting | Approved | Rejected {
    function Name(): string
    {
      match this
      case Waiting => "pending"
      case Approved => "approved"
      case Rejected => "rejected"
    }
  }

  /** The `enum` validator of `Prescription.status`. */
  function ParsePrescriptionStatus(s: string): (r: Option<PrescriptionStatus>)
    ensures r.Some? ==> r.value.Name() == s
    ensures r.None? ==> forall st: PrescriptionStatus :: st.Name() != s
  {
    if s == "pending" then Some(Waiting)
    else if s == "approved" then Some(Approved)
    else if s == "rejected" then Some(Rejected)
    else None
  }

  /** Every status spelling parses back to its status: the enum validators accept exactly the listed names. */
  lemma EnumNamesParse(o: OrderStatus, m: PaymentMethod, p: PrescriptionStatus)
    ensures ParseOrderStatus(o.Name()) == Some(o)
    ensures ParsePaymentMethod(m.Name()) == Some(m)
    ensures ParsePrescriptionStatus(p.Name()) == Some(p)
  {
  }

  /** Mongoose's `required` check on a string path: present and not the empty string. */
  predicate RequiredText(s: Option<string>)
  {
    s.Some? && s.value != ""
  }

  // ---------------------------------------------------------------- Medicine

  const DefaultImage: string := "no-photo.jpg"

  /** A catalog entry. Prices are integer minor units; neither price nor stock has a lower bound. */
  datatype Medicine = Medicine(
    name: string,
    description: string,
    price: int,
    stock: int,
    category: string,
    manufacturer: string,
    expiryDate: int,
    requiresPrescription: bool,
    image: string)
  {
    /** What the schema guarantees of a stored entry: trimmed non-empty name, non-empty required texts. */
    predicate Valid()
    {
      && name != "" && Text.IsTrimmed(name)
      && description != "" && category != "" && manufacturer != ""
    }
  }

  /**
   * Catalog fields as they arrive in a request body; `None` is a field the body leaves out.
   * Used whole by `Medicine.create` and as a patch by `findByIdAndUpdate`.
   */
  datatype MedicineFields = MedicineFields(
    name: Option<string>,
    description: Option<string>,
    price: Option<int>,
    stock: Option<int>,
    category: Option<string>,
    manufacturer: Option<string>,
    expiryDate: Option<int>,
    requiresPrescription: Option<bool>,
    image: Option<string>)

  /** The `name` path's setter: `trim: true`. */
  function TrimmedName(name: Option<string>): Option<string>
  {
    match name
    case None => None
    case Some(s) => Some(Text.Trim(s))
  }

  /**
   * `Medicine.create(body)`: apply the defaults (stock 0, no prescription needed, "no-photo.jpg"),
   * trim the name, then run the `required` validators. `None` is a validation failure.
   */
  function NewMedicine(body: MedicineFields): (r: Option<Medicine>)
    ensures r.Some? <==>
      && RequiredText(TrimmedName(body.name)) && RequiredText(body.description)
      && body.price.Some? && RequiredText(body.category) && RequiredText(body.manufacturer)
      && body.expiryDate.Some?
    ensures r.Some? ==> r.value.Valid()
    ensures r.Some? ==>
      && r.value.name == Text.Trim(body.name.value)
      && r.value.description == body.description.value
      && r.value.price == body.price.value
      && r.value.stock == body.stock.GetOr(0)
      && r.value.category == body.category.value
      && r.value.manufacturer == body.manufacturer.value
      && r.value.expiryDate == body.expiryDate.value
      && r.value.requiresPrescription == body.requiresPrescription.GetOr(false)
      && r.value.image == body.image.GetOr(DefaultImage)
  {
    var name := TrimmedName(body.name);
    if && RequiredText(name) && RequiredText(body.description) && body.price.Some?
       && RequiredText(body.category) && RequiredText(body.manufacturer) && body.expiryDate.Some?
    then
      Some(Medicine(
        name.value, body.description.value, body.price.value, body.stock.GetOr(0),
        body.category.value, body.manufacturer.value, body.expiryDate.value,
        body.requiresPrescription.GetOr(false), body.image.GetOr(DefaultImage)))
    else
      None
  }

  /** An update validator's `required` check: a field the patch sets must not be set to the empty string. */
  predicate PatchKeepsText(s: Option<string>)
  {
    s.None? || s.value != ""
  }

  /**
   * `findByIdAndUpdate(id, body, {runValidators: true})` on one entry: fields the body carries
   * replace the stored ones, the others stay; a required text set to "" fails (`None`).
   */
  function PatchMedicine(m: Medicine, patch: MedicineFields): (r: Option<Medicine>)
    ensures r.Some? <==>
      PatchKeepsText(TrimmedName(patch.name)) && PatchKeepsText(patch.description)
      && PatchKeepsText(patch.category) && PatchKeepsText(patch.manufacturer)
    ensures r.Some? ==>
      && r.value.name == (if patch.name.Some? then Text.Trim(patch.name.value) else m.name)
      && r.value.description == patch.description.GetOr(m.description)
      && r.value.price == patch.price.GetOr(m.price)
      && r.value.stock == patch.stock.GetOr(m.stock)
      && r.value.category == patch.category.GetOr(m.category)
      && r.value.manufacturer == patch.manufacturer.GetOr(m.manufacturer)
      && r.value.expiryDate == patch.expiryDate.GetOr(m.expiryDate)
      && r.value.requiresPrescription == patch.requiresPrescription.GetOr(m.requiresPrescription)
      && r.value.image == patch.image.GetOr(m.image)
    ensures r.Some? && m.Valid() ==> r.value.Valid()
  {
    var name := TrimmedName(patch.name);
    if && PatchKeepsText(name) && PatchKeepsText(patch.description)
       && PatchKeepsText(patch.category) && PatchKeepsText(patch.manufacturer)
    then
      Some(Medicine(
        name.GetOr(m.name), patch.description.GetOr(m.description), patch.price.GetOr(m.price),
        patch.stock.GetOr(m.stock), patch.category.GetOr(m.category),
        patch.manufacturer.GetOr(m.manufacturer), patch.expiryDate.GetOr(m.expiryDate),
        patch.requiresPrescription.GetOr(m.requiresPrescription), patch.image.GetOr(m.image)))
    else
      None
  }

  /** Applying the same patch a second time changes nothing: every patched field already holds the patch's value. */
  lemma PatchMedicineIdempotent(m: Medicine, patch: MedicineFields)
    requires PatchMedicine(m, patch).Some?
    ensures PatchMedicine(PatchMedicine(m, patch).value, patch) == PatchMedicine(m, patch)
  {
    var once := PatchMedicine(m, patch).value;
    var twice := PatchMedicine(once, patch);
    assert twice.Some?;
    assert twice.value.name == once.name;
    assert twice.value == once;
  }

  // ---------------------------------------------------------------- Order

  /** One line of an order: the medicine, how many, and the unit price read when the order was placed. */
  datatype OrderItem = OrderItem(medicine: Id, quantity: int, price: int)

  datatype Order = Order(
    user: Id,
    items: seq<OrderItem>,
    totalPrice: int,
    prescription: Option<Id>,
    status: OrderStatus,
    paymentMethod: PaymentMethod,
    shippingAddress: string)
  {
    /** What the schema guarantees of a stored order: every quantity at least 1, an address. */
    predicate Valid()
    {
      && (forall k :: 0 <= k < |items| ==> items[k].quantity >= 1)
      && shippingAddress != ""
    }
  }

  /** The `min: 1` validator of every item's quantity. */
  predicate QuantitiesAtLeastOne(items: seq<OrderItem>)
  {
    forall k :: 0 <= k < |items| ==> items[k].quantity >= 1
  }

  /**
   * `Order.create({...})`: status defaults to pending and the payment method to cash; the item
   * quantities, the shipping address and the payment method are validated. `None` is a validation failure.
   */
  function NewOrder(user: Id, items: seq<OrderItem>, totalPrice: int, prescription: Option<Id>,
                    paymentMethod: Option<string>, shippingAddress: Option<string>): (r: Option<Order>)
    ensures r.Some? <==>
      && QuantitiesAtLeastOne(items) && RequiredText(shippingAddress)
      && (paymentMethod.None? || ParsePaymentMethod(paymentMethod.value).Some?)
    ensures r.Some? ==>
      && r.value.Valid() && r.value.status == Pending
      && r.value.user == user && r.value.items == items && r.value.totalPrice == totalPrice
      && r.value.prescription == prescription && r.value.shippingAddress == shippingAddress.value
      && r.value.paymentMethod.Name() == paymentMethod.GetOr("cash")
  {
    var payment := if paymentMethod.None? then Some(Cash) else ParsePaymentMethod(paymentMethod.value);
    if QuantitiesAtLeastOne(items) && RequiredText(shippingAddress) && payment.Some? then
      Some(Order(user, items, totalPrice, prescription, Pending, payment.value, shippingAddress.value))
    else
      None
  }

  // ---------------------------------------------------------------- Prescription

  datatype Prescription = Prescription(
    user: Id,
    imageUrl: string,
    status: PrescriptionStatus,
    reviewedBy: Option<Id>,
    reviewNotes: Option<string>)

  /** `Prescription.create({user, imageUrl})`: a pending record with no review yet; the image path is required. */
  function NewPrescription(user: Id, imageUrl: string): (r: Option<Prescription>)
    ensures r.Some? <==> imageUrl != ""
    ensures r.Some? ==>
      && r.value.user == user && r.value.imageUrl == imageUrl && r.value.status == Waiting
      && r.value.reviewedBy.None? && r.value.reviewNotes.None?
  {
    if imageUrl != "" then Some(Prescription(user, imageUrl, Waiting, None, None)) else None
  }

  // ---------------------------------------------------------------- User

  /** A user as the auth controller sees it; `password` holds the stored hash. */
  datatype User = User(name: string, email: string, password: string, role: Role, refreshToken: Option<Token>)
}

=== FILE: order_items.dfy ===
/**
 * The item loop of `createOrder`: for each requested item, in order, look the medicine up,
 * check its stock, snapshot its price, note whether it needs a prescription, and decrement
 * and save its stock before moving on. The loop stops at the first item it rejects, keeping
 * the decrements already saved.
 *
 * `Loop` follows the source loop step by step; `Demand`, `Admissible`, `Decremented`,
 * `Snapshot` and `NeedsPrescription` describe the outcome independently, in terms of the
 * catalog as it was before the request, and the lemmas at the end connect the two.
 */
module OrderItems {
  import opened Wrappers
  import opened Models
  import opened Store

  /** One entry of the request's `items` array. */
  datatype ItemRequest = ItemRequest(medicine: Id, quantity: int)

  /** What the loop has accumulated: `orderItems`, `totalPrice` and `needsPrescription`. */
  datatype Tally = Tally(lines: seq<OrderItem>, total: int, needsPrescription: bool)

  /** Where the loop ended: the accumulated tally or the rejection, and the catalog as saved so far. */
  datatype ItemsRun = ItemsRun(result: Result<Tally, Error>, catalog: map<Id, Medicine>)

  /** The loop from item `i` on, with `catalog` holding the stock saved by items `0..i-1`. */
  function Loop(catalog: map<Id, Medicine>, items: seq<ItemRequest>, i: nat, tally: Tally): ItemsRun
    requires i <= |items|
    decreases |items| - i
  {
    if i == |items| then ItemsRun(Ok(tally), catalog)
    else
      var item := items[i];
      if item.medicine !in catalog then
        ItemsRun(Err(MedicineNotFound(item.medicine)), catalog)
      else
        var m := catalog[item.medicine];
        if m.stock < item.quantity then
          ItemsRun(Err(InsufficientStock(m.name)), catalog)
        else
          var tally' := Tally(
            tally.lines + [OrderItem(item.medicine, item.quantity, m.price)],
            tally.total + m.price * item.quantity,
            tally.needsPrescription || m.requiresPrescription);
          Loop(catalog[item.medicine := m.(stock := m.stock - item.quantity)], items, i + 1, tally')
  }

  /**
   * The whole loop, starting from an empty tally: on success one line per item, in request order,
   * with that item's medicine and quantity; otherwise a 404 or a 400.
   */
  function ProcessItems(catalog: map<Id, Medicine>, items: seq<ItemRequest>): (r: ItemsRun)
    ensures r.result.Ok? ==> |r.result.value.lines| == |items|
    ensures r.result.Ok? ==> forall k :: 0 <= k < |items| ==>
              r.result.value.lines[k].medicine == items[k].medicine && r.result.value.lines[k].quantity == items[k].quantity
    ensures r.result.Err? ==> r.result.error.Status() in {400, 404}
  {
    var start := Tally([], 0, false);
    LoopLines(catalog, items, 0, start);
    var r := Loop(catalog, items, 0, start);
    assert r.result.Ok? ==> forall k :: 0 <= k < |items| ==> r.result.value.lines[k] == r.result.value.lines[|start.lines| + k - 0];
    assert r.result.Err? ==> r.result.error.Status() == 400 || r.result.error.Status() == 404;
    r
  }

  /**
   * When the loop from item `i` gets through, the lines so far are followed by one line per
   * remaining item, naming that item's medicine and quantity; when it stops, the error is a
   * missing medicine or short stock.
   */
  lemma {:induction false} LoopLines(catalog: map<Id, Medicine>, items: seq<ItemRequest>, i: nat, tally: Tally)
    requires i <= |items|
    ensures var r := Loop(catalog, items, i, tally);
            && (r.result.Ok? ==> |r.result.value.lines| == |tally.lines| + |items| - i)
            && (r.result.Ok? ==> r.result.value.lines[..|tally.lines|] == tally.lines)
            && (r.result.Ok? ==> forall k :: i <= k < |items| ==>
                  var line := r.result.value.lines[|tally.lines| + k - i];
                  line.medicine == items[k].medicine && line.quantity == items[k].quantity)
            && (r.result.Err? ==> r.result.error.MedicineNotFound? || r.result.error.InsufficientStock?)
    decreases |items| - i
  {
    if i < |items| {
      var item := items[i];
      if item.medicine in catalog && catalog[item.medicine].stock >= item.quantity {
        var m := catalog[item.medicine];
        var tally' := Tally(
          tally.lines + [OrderItem(item.medicine, item.quantity, m.price)],
          tally.total + m.price * item.quantity,
          tally.needsPrescription || m.requiresPrescription);
        var catalog' := catalog[item.medicine := m.(stock := m.stock - item.quantity)];
        LoopLines(catalog', items, i + 1, tally');
        var r := Loop(catalog', items, i + 1, tally');
        if r.result.Ok? {
          var lines := r.result.value.lines;
          assert lines[..|tally'.lines|] == tally'.lines;
          assert lines[..|tally.lines|] == tally'.lines[..|tally.lines|];
          assert lines[|tally.lines|] == tally'.lines[|tally.lines|];
        }
      }
    }
  }

  // ---------------------------------------------------------------- reference definitions

  /** Total quantity the first `n` items ask of medicine `id`. */
  function Demand(items: seq<ItemRequest>, n: nat, id: Id): int
    requires n <= |items|
  {
    if n == 0 then 0
    else Demand(items, n - 1, id) + (if items[n - 1].medicine == id then items[n - 1].quantity else 0)
  }

  /**
   * Item `k` passes its checks: its medicine exists, and the stock left after the earlier
   * items of the same request (duplicates included) covers its quantity.
   */
  predicate Admissible(c0: map<Id, Medicine>, items: seq<ItemRequest>, k: nat)
    requires k < |items|
  {
    var id := items[k].medicine;
    id in c0 && c0[id].stock - Demand(items, k, id) >= items[k].quantity
  }

  /** Item `k` is the first item the loop rejects. */
  predicate FirstRejected(c0: map<Id, Medicine>, items: seq<ItemRequest>, k: nat)
    requires k < |items|
  {
    !Admissible(c0, items, k) && forall j :: 0 <= j < k ==> Admissible(c0, items, j)
  }

  /** The error for a rejected item: unknown medicine (404) or not enough stock (400). */
  function Rejection(c0: map<Id, Medicine>, items: seq<ItemRequest>, k: nat): Error
    requires k < |items|
  {
    var id := items[k].medicine;
    if id !in c0 then MedicineNotFound(id) else InsufficientStock(c0[id].name)
  }

  /** The catalog with the first `n` items' quantities taken off their medicines' stock. */
  function Decremented(c0: map<Id, Medicine>, items: seq<ItemRequest>, n: nat): map<Id, Medicine>
    requires n <= |items|
  {
    map id | id in c0 :: c0[id].(stock := c0[id].stock - Demand(items, n, id))
  }

  /** The first `n` order lines: medicine, quantity and the catalog's price before the request. */
  function Snapshot(c0: map<Id, Medicine>, items: seq<ItemRequest>, n: nat): (lines: seq<OrderItem>)
    requires n <= |items|
    requires forall k :: 0 <= k < n ==> items[k].medicine in c0
    ensures |lines| == n
  {
    seq(n, k requires 0 <= k < n => OrderItem(items[k].medicine, items[k].quantity, c0[items[k].medicine].price))
  }

  /** Sum of `price * quantity` over order lines. */
  function LinesTotal(lines: seq<OrderItem>): int
  {
    if |lines| == 0 then 0
    else LinesTotal(lines[..|lines| - 1]) + lines[|lines| - 1].price * lines[|lines| - 1].quantity
  }

  /** Some item among the first `n` names a medicine that requires a prescription. */
  predicate NeedsPrescription(c0: map<Id, Medicine>, items: seq<ItemRequest>, n: nat)
    requires n <= |items|
  {
    exists k :: 0 <= k < n && items[k].medicine in c0 && c0[items[k].medicine].requiresPrescription
  }

  predicate AllAdmissible(c0: map<Id, Medicine>, items: seq<ItemRequest>)
  {
    forall k :: 0 <= k < |items| ==> Admissible(c0, items, k)
  }

  /** The tally the loop holds after the first `n` items, all of which it accepted. */
  function TallyOf(c0: map<Id, Medicine>, items: seq<ItemRequest>, n: nat): Tally
    requires n <= |items|
    requires forall k :: 0 <= k < n ==> Admissible(c0, items, k)
  {
    assert forall k :: 0 <= k < n ==> items[k].medicine in c0 by {
      forall k | 0 <= k < n
        ensures items[k].medicine in c0
      {
        assert Admissible(c0, items, k);
      }
    }
    var lines := Snapshot(c0, items, n);
    Tally(lines, LinesTotal(lines), NeedsPrescription(c0, items, n))
  }

  /** Every medicine's stock is non-negative. */
  predicate StockNonNegative(catalog: map<Id, Medicine>)
  {
    forall id :: id in catalog ==> catalog[id].stock >= 0
  }

  // ---------------------------------------------------------------- one step

  lemma DecrementedStep(c0: map<Id, Medicine>, items: seq<ItemRequest>, i: nat)
    requires i < |items| && items[i].medicine in c0
    ensures var id := items[i].medicine;
            var before := Decremented(c0, items, i);
            Decremented(c0, items, i + 1)
              == before[id := before[id].(stock := before[id].stock - items[i].quantity)]
  {
    var id := items[i].medicine;
    var before := Decremented(c0, items, i);
    var after := before[id := before[id].(stock := before[id].stock - items[i].quantity)];
    forall x | x in c0
      ensures Decremented(c0, items, i + 1)[x] == after[x]
    {
      assert Demand(items, i + 1, x) == Demand(items, i, x) + (if x == id then items[i].quantity else 0);
    }
  }

  lemma TallyStep(c0: map<Id, Medicine>, items: seq<ItemRequest>, i: nat)
    requires i < |items|
    requires forall k :: 0 <= k <= i ==> Admissible(c0, items, k)
    ensures items[i].medicine in c0
    ensures var t := TallyOf(c0, items, i);
            var m := c0[items[i].medicine];
            TallyOf(c0, items, i + 1) == Tally(
              t.lines + [OrderItem(items[i].medicine, items[i].quantity, m.price)],
              t.total + m.price * items[i].quantity,
              t.needsPrescription || m.requiresPrescription)
  {
    assert Admissible(c0, items, i);
    var id := items[i].medicine;
    var m := c0[id];
    assert forall k :: 0 <= k < i ==> items[k].medicine in c0 by {
      forall k | 0 <= k < i
        ensures items[k].medicine in c0
      {
        assert Admissible(c0, items, k);
      }
    }
    var before := Snapshot(c0, items, i);
    var after := Snapshot(c0, items, i + 1);
    assert after == before + [OrderItem(id, items[i].quantity, m.price)];
    assert after[..|after| - 1] == before;
    if m.requiresPrescription {
      assert NeedsPrescription(c0, items, i + 1);
    }
    if NeedsPrescription(c0, items, i + 1) {
      var k :| 0 <= k < i + 1 && items[k].medicine in c0 && c0[items[k].medicine].requiresPrescription;
      if k < i {
        assert NeedsPrescription(c0, items, i);
      }
    }
  }

  // ---------------------------------------------------------------- the loop against the reference

  /**
   * The loop from item `i`, entered with the catalog and tally the reference definitions give
   * for the first `i` items, ends as the reference definitions say it should.
   */
  lemma {:induction false} LoopMeetsReference(c0: map<Id, Medicine>, items: seq<ItemRequest>, i: nat,
                                              catalog: map<Id, Medicine>, tally: Tally)
    requires i <= |items|
    requires forall j :: 0 <= j < i ==> Admissible(c0, items, j)
    requires catalog == Decremented(c0, items, i)
    requires tally == TallyOf(c0, items, i)
    ensures var run := Loop(catalog, items, i, tally);
            && (run.result.Ok? <==> forall j :: i <= j < |items| ==> Admissible(c0, items, j))
            && (run.result.Ok? ==>
                  && AllAdmissible(c0, items)
                  && run.result.value == TallyOf(c0, items, |items|)
                  && run.catalog == Decremented(c0, items, |items|))
            && (run.result.Err? ==>
                  exists k :: i <= k < |items| && FirstRejected(c0, items, k)
                              && run.catalog == Decremented(c0, items, k)
                              && run.result.error == Rejection(c0, items, k))
    decreases |items| - i
  {
    if i < |items| {
      AdmissibleAgainstSaved(c0, items, i, catalog);
      if !Admissible(c0, items, i) {
        LoopRejectsHere(c0, items, i, catalog, tally);
      } else {
        LoopStepsHere(c0, items, i, catalog, tally);
        LoopMeetsReference(c0, items, i + 1, Decremented(c0, items, i + 1), TallyOf(c0, items, i + 1));
        if forall j :: i + 1 <= j < |items| ==> Admissible(c0, items, j) {
          assert forall j :: i <= j < |items| ==> Admissible(c0, items, j);
        }
      }
    }
  }

  /** Against the catalog as saved so far, the loop's two checks on item `i` are exactly admissibility. */
  lemma AdmissibleAgainstSaved(c0: map<Id, Medicine>, items: seq<ItemRequest>, i: nat, catalog: map<Id, Medicine>)
    requires i < |items| && catalog == Decremented(c0, items, i)
    ensures Admissible(c0, items, i) <==>
              items[i].medicine in catalog && catalog[items[i].medicine].stock >= items[i].quantity
  {
  }

  /** An inadmissible item `i`, reached with every earlier item admitted, is where the loop stops. */
  lemma LoopRejectsHere(c0: map<Id, Medicine>, items: seq<ItemRequest>, i: nat,
                        catalog: map<Id, Medicine>, tally: Tally)
    requires i < |items|
    requires forall j :: 0 <= j < i ==> Admissible(c0, items, j)
    requires catalog == Decremented(c0, items, i)
    requires !Admissible(c0, items, i)
    ensures var run := Loop(catalog, items, i, tally);
            && FirstRejected(c0, items, i)
            && run.result == Err(Rejection(c0, items, i))
            && run.catalog == catalog
  {
    AdmissibleAgainstSaved(c0, items, i, catalog);
    var id := items[i].medicine;
    if id in catalog {
      assert catalog[id].name == c0[id].name;
    }
  }

  /**
   * An admissible item `i`, reached with the reference catalog and tally, takes the loop to item
   * `i + 1` with the reference catalog and tally for one more item.
   */
  lemma LoopStepsHere(c0: map<Id, Medicine>, items: seq<ItemRequest>, i: nat,
                      catalog: map<Id, Medicine>, tally: Tally)
    requires i < |items|
    requires forall j :: 0 <= j <= i ==> Admissible(c0, items, j)
    requires catalog == Decremented(c0, items, i)
    requires tally == TallyOf(c0, items, i)
    ensures Loop(catalog, items, i, tally)
            == Loop(Decremented(c0, items, i + 1), items, i + 1, TallyOf(c0, items, i + 1))
  {
    AdmissibleAgainstSaved(c0, items, i, catalog);
    DecrementedStep(c0, items, i);
    TallyStep(c0, items, i);
    var id := items[i].medicine;
    assert catalog[id].price == c0[id].price;
    assert catalog[id].requiresPrescription == c0[id].requiresPrescription;
  }

  /** The loop accepts every item exactly when every item is admissible against the earlier decrements. */
  lemma ProcessItemsAccepts(c0: map<Id, Medicine>, items: seq<ItemRequest>)
    ensures ProcessItems(c0, items).result.Ok? <==> AllAdmissible(c0, items)
  {
    assert c0 == Decremented(c0, items, 0);
    assert TallyOf(c0, items, 0) == Tally([], 0, false);
    LoopMeetsReference(c0, items, 0, c0, Tally([], 0, false));
  }

  /**
   * When every item is accepted: the lines are the items in request order with the price read
   * from the catalog, the total is the sum of `price * quantity` over the lines, a prescription is
   * needed exactly when some item's medicine requires one, and each medicine's stock went down by
   * the total quantity the request asked of it.
   */
  lemma ProcessItemsSuccess(c0: map<Id, Medicine>, items: seq<ItemRequest>)
    requires ProcessItems(c0, items).result.Ok?
    ensures var run := ProcessItems(c0, items);
            && AllAdmissible(c0, items)
            && |run.result.value.lines| == |items|
            && (forall k :: 0 <= k < |items| ==>
                  && items[k].medicine in c0
                  && run.result.value.lines[k]
                       == OrderItem(items[k].medicine, items[k].quantity, c0[items[k].medicine].price))
            && run.result.value.total == LinesTotal(run.result.value.lines)
            && (run.result.value.needsPrescription <==> NeedsPrescription(c0, items, |items|))
            && run.catalog == Decremented(c0, items, |items|)
  {
    assert c0 == Decremented(c0, items, 0);
    assert TallyOf(c0, items, 0) == Tally([], 0, false);
    LoopMeetsReference(c0, items, 0, c0, Tally([], 0, false));
    forall k | 0 <= k < |items|
      ensures items[k].medicine in c0
    {
      assert Admissible(c0, items, k);
    }
  }

  /**
   * When an item is rejected: it is the first inadmissible item `k`, the error names it, and the
   * catalog keeps the decrements of items `0..k-1` (nothing is rolled back).
   */
  lemma ProcessItemsFailure(c0: map<Id, Medicine>, items: seq<ItemRequest>)
    requires ProcessItems(c0, items).result.Err?
    ensures var run := ProcessItems(c0, items);
            exists k :: 0 <= k < |items| && FirstRejected(c0, items, k)
                        && run.catalog == Decremented(c0, items, k)
                        && run.result.error == Rejection(c0, items, k)
  {
    assert c0 == Decremented(c0, items, 0);
    assert TallyOf(c0, items, 0) == Tally([], 0, false);
    LoopMeetsReference(c0, items, 0, c0, Tally([], 0, false));
  }

  /** The item loop never adds or removes catalog entries. */
  lemma ProcessItemsKeepsKeys(catalog: map<Id, Medicine>, items: seq<ItemRequest>)
    ensures ProcessItems(catalog, items).catalog.Keys == catalog.Keys
  {
    var c0 := catalog;
    assert c0 == Decremented(c0, items, 0);
    assert TallyOf(c0, items, 0) == Tally([], 0, false);
    LoopMeetsReference(c0, items, 0, c0, Tally([], 0, false));
    if ProcessItems(catalog, items).result.Err? {
      var k :| 0 <= k < |items| && ProcessItems(catalog, items).catalog == Decremented(c0, items, k);
    }
  }

  // ---------------------------------------------------------------- stock bounds

  /**
   * Every step the loop completes leaves that medicine's stock at `stock - quantity >= 0`; so a
   * catalog with no negative stock keeps none, whether the loop accepts every item or stops early.
   */
  lemma {:induction false} LoopKeepsStockNonNegative(catalog: map<Id, Medicine>, items: seq<ItemRequest>,
                                                     i: nat, tally: Tally)
    requires i <= |items|
    requires StockNonNegative(catalog)
    ensures StockNonNegative(Loop(catalog, items, i, tally).catalog)
    ensures Loop(catalog, items, i, tally).catalog.Keys == catalog.Keys
    decreases |items| - i
  {
    if i < |items| {
      var item := items[i];
      if item.medicine in catalog && catalog[item.medicine].stock >= item.quantity {
        var m := catalog[item.medicine];
        var next := catalog[item.medicine := m.(stock := m.stock - item.quantity)];
        LoopKeepsStockNonNegative(next, items, i + 1,
          Tally(tally.lines + [OrderItem(item.medicine, item.quantity, m.price)],
                tally.total + m.price * item.quantity,
                tally.needsPrescription || m.requiresPrescription));
      }
    }
  }

  /**
   * After a successful loop every medicine the request named has non-negative stock, even when
   * its stock was negative before (the schema sets no lower bound; only this check does).
   */
  lemma {:induction false} LoopLeavesNamedStockNonNegative(catalog: map<Id, Medicine>, items: seq<ItemRequest>,
                                                           i: nat, tally: Tally)
    requires i <= |items|
    requires forall k :: 0 <= k < i ==> items[k].medicine in catalog && catalog[items[k].medicine].stock >= 0
    ensures var run := Loop(catalog, items, i, tally);
            run.result.Ok? ==>
              forall k :: 0 <= k < |items| ==> items[k].medicine in run.catalog && run.catalog[items[k].medicine].stock >= 0
    decreases |items| - i
  {
    if i < |items| {
      var item := items[i];
      if item.medicine in catalog && catalog[item.medicine].stock >= item.quantity {
        var m := catalog[item.medicine];
        var next := catalog[item.medicine := m.(stock := m.stock - item.quantity)];
        LoopLeavesNamedStockNonNegative(next, items, i + 1,
          Tally(tally.lines + [OrderItem(item.medicine, item.quantity, m.price)],
                tally.total + m.price * item.quantity,
                tally.needsPrescription || m.requiresPrescription));
      }
    }
  }
}

=== FILE: orders.dfy ===
/**
 * The order controller: `createOrder` (the item loop, then the prescription gate, then
 * `Order.create`), `getOrders` (ownership filter) and `updateOrderStatus`.
 */
module Orders {
  import opened Wrappers
  import opened Models
  import opened Store
  import opened OrderItems

  /** The body of `POST /orders`; `None` is a field the body leaves out. */
  datatype OrderRequest = OrderRequest(
    items: Option<seq<ItemRequest>>,
    shippingAddress: Option<string>,
    paymentMethod: Option<string>,
    prescriptionId: Option<Id>)

  /** `!items || items.length === 0`. */
  predicate NoItems(req: OrderRequest)
  {
    req.items.None? || |req.items.value| == 0
  }

  /** Every stored order satisfies the Order schema. */
  predicate OrdersValid(db: Db)
  {
    forall id :: id in db.orders ==> db.orders[id].Valid()
  }

  /**
   * The prescription check after the item loop, when some item needs a prescription: one must be
   * named, exist, belong to the caller and be approved. `Some(e)` is the refusal; each is a 400.
   */
  function PrescriptionGate(prescriptions: map<Id, Prescription>, caller: Caller, needed: bool,
                            prescriptionId: Option<Id>): (refusal: Option<Error>)
    ensures refusal.None? <==>
      || !needed
      || (&& prescriptionId.Some? && prescriptionId.value in prescriptions
          && prescriptions[prescriptionId.value].user == caller.id
          && prescriptions[prescriptionId.value].status == Approved)
    ensures needed && prescriptionId.None? ==> refusal == Some(PrescriptionRequired)
    ensures needed && prescriptionId.Some?
            && (prescriptionId.value !in prescriptions || prescriptions[prescriptionId.value].user != caller.id)
            ==> refusal == Some(InvalidPrescription)
    ensures refusal.Some? ==> refusal.value.Status() == 400
  {
    if !needed then None
    else if prescriptionId.None? then Some(PrescriptionRequired)
    else
      var pid := prescriptionId.value;
      if pid !in prescriptions || prescriptions[pid].user != caller.id then Some(InvalidPrescription)
      else if prescriptions[pid].status != Approved then Some(PrescriptionNotApproved)
      else None
  }

  /**
   * `createOrder`. Stock is decremented and saved item by item before the prescription gate and
   * before `Order.create` validates the order, and no failure after that point restores it.
   * `newId` is the id the store assigns to the new order.
   */
  function CreateOrder(db: Db, caller: Caller, req: OrderRequest, newId: Id): (r: Reply<Order>)
    requires newId !in db.orders
    ensures NoItems(req) ==> r == Reply(Err(NoOrderItems), db)
    ensures r.db.users == db.users && r.db.prescriptions == db.prescriptions
    ensures r.db.medicines.Keys == db.medicines.Keys
    ensures r.result.Err? ==> r.db.orders == db.orders
    ensures r.result.Ok? ==>
      && r.result.value.Valid()
      && r.result.value.user == caller.id
      && r.result.value.status == Pending
      && r.db.orders == db.orders[newId := r.result.value]
  {
    if NoItems(req) then Reply(Err(NoOrderItems), db)
    else
      var items := req.items.value;
      var run := ProcessItems(db.medicines, items);
      ProcessItemsKeepsKeys(db.medicines, items);
      var saved := db.(medicines := run.catalog);
      match run.result
      case Err(e) => Reply(Err(e), saved)
      case Ok(tally) =>
        match PrescriptionGate(db.prescriptions, caller, tally.needsPrescription, req.prescriptionId)
        case Some(e) => Reply(Err(e), saved)
        case None =>
          var prescription := if tally.needsPrescription then req.prescriptionId else None;
          match NewOrder(caller.id, tally.lines, tally.total, prescription, req.paymentMethod, req.shippingAddress)
          case None => Reply(Err(ValidationFailed), saved)
          case Some(order) => Reply(Ok(order), saved.(orders := saved.orders[newId := order]))
  }

  /**
   * When `createOrder` succeeds: the items were all in the catalog with enough stock, the gate
   * passed, and the schema accepted the order.  And conversely.
   */
  lemma CreateOrderSucceedsIff(db: Db, caller: Caller, req: OrderRequest, newId: Id)
    requires newId !in db.orders
    ensures CreateOrder(db, caller, req, newId).result.Ok? <==>
      && !NoItems(req)
      && AllAdmissible(db.medicines, req.items.value)
      && PrescriptionGate(db.prescriptions, caller,
           NeedsPrescription(db.medicines, req.items.value, |req.items.value|), req.prescriptionId).None?
      && (forall k :: 0 <= k < |req.items.value| ==> req.items.value[k].quantity >= 1)
      && RequiredText(req.shippingAddress)
      && (req.paymentMethod.None? || ParsePaymentMethod(req.paymentMethod.value).Some?)
  {
    if !NoItems(req) {
      var items := req.items.value;
      ProcessItemsAccepts(db.medicines, items);
      if AllAdmissible(db.medicines, items) {
        ProcessItemsSuccess(db.medicines, items);
        var lines := ProcessItems(db.medicines, items).result.value.lines;
        assert QuantitiesAtLeastOne(lines) <==> forall k :: 0 <= k < |items| ==> items[k].quantity >= 1 by {
          if QuantitiesAtLeastOne(lines) {
            forall k | 0 <= k < |items|
              ensures items[k].quantity >= 1
            {
              assert lines[k].quantity == items[k].quantity;
            }
          }
        }
      }
    }
  }

  /**
   * A created order lists the requested items in order, each with the catalog price read at
   * creation; its total is the sum of `price * quantity`; it references the prescription exactly
   * when one was needed, and then the caller's own approved one; each medicine's stock went
   * down by the quantity ordered of it; and the order is stored under its new id.
   */
  lemma CreateOrderSuccess(db: Db, caller: Caller, req: OrderRequest, newId: Id)
    requires newId !in db.orders
    requires CreateOrder(db, caller, req, newId).result.Ok?
    ensures var r := CreateOrder(db, caller, req, newId);
            var items := req.items.value;
            var o := r.result.value;
            && |o.items| == |items|
            && (forall k :: 0 <= k < |items| ==>
                  && items[k].medicine in db.medicines
                  && o.items[k] == OrderItem(items[k].medicine, items[k].quantity, db.medicines[items[k].medicine].price))
            && o.totalPrice == LinesTotal(o.items)
            && (o.prescription.Some? <==> NeedsPrescription(db.medicines, items, |items|))
            && (o.prescription.Some? ==>
                  && o.prescription == req.prescriptionId
                  && o.prescription.value in db.prescriptions
                  && db.prescriptions[o.prescription.value].user == caller.id
                  && db.prescriptions[o.prescription.value].status == Approved)
            && r.db.medicines == Decremented(db.medicines, items, |items|)
  {
    ProcessItemsSuccess(db.medicines, req.items.value);
  }

  /**
   * When `createOrder` fails, no order is stored, and the catalog keeps every decrement made
   * before the failure: none for a missing item list, those of the items before the first
   * rejected one, or all of them when the prescription gate or the schema refuses.
   */
  lemma CreateOrderFailure(db: Db, caller: Caller, req: OrderRequest, newId: Id)
    requires newId !in db.orders
    requires CreateOrder(db, caller, req, newId).result.Err?
    ensures var r := CreateOrder(db, caller, req, newId);
            && r.db.orders == db.orders
            && (|| (NoItems(req) && r.db == db && r.result.error == NoOrderItems)
                || (&& !NoItems(req)
                    && exists k :: 0 <= k < |req.items.value| && FirstRejected(db.medicines, req.items.value, k)
                                   && r.db.medicines == Decremented(db.medicines, req.items.value, k)
                                   && r.result.error == Rejection(db.medicines, req.items.value, k))
                || (&& !NoItems(req)
                    && AllAdmissible(db.medicines, req.items.value)
                    && r.db.medicines == Decremented(db.medicines, req.items.value, |req.items.value|)
                    && r.result.error in {PrescriptionRequired, InvalidPrescription, PrescriptionNotApproved, ValidationFailed}))
  {
    if !NoItems(req) {
      var items := req.items.value;
      if ProcessItems(db.medicines, items).result.Err? {
        ProcessItemsFailure(db.medicines, items);
      } else {
        ProcessItemsSuccess(db.medicines, items);
      }
    }
  }

  /** No request drives a stock below zero: a catalog without negative stock keeps none. */
  lemma CreateOrderKeepsStockNonNegative(db: Db, caller: Caller, req: OrderRequest, newId: Id)
    requires newId !in db.orders
    requires StockNonNegative(db.medicines)
    ensures StockNonNegative(CreateOrder(db, caller, req, newId).db.medicines)
  {
    if !NoItems(req) {
      LoopKeepsStockNonNegative(db.medicines, req.items.value, 0, Tally([], 0, false));
    }
  }

  /** Creating an order keeps every stored order schema-valid. */
  lemma CreateOrderKeepsOrdersValid(db: Db, caller: Caller, req: OrderRequest, newId: Id)
    requires newId !in db.orders
    requires OrdersValid(db)
    ensures OrdersValid(CreateOrder(db, caller, req, newId).db)
  {
  }

  // ---------------------------------------------------------------- listing and status

  /** `getOrders`: staff see every order, anyone else exactly their own. */
  function GetOrders(db: Db, caller: Caller): (r: map<Id, Order>)
    ensures caller.role.IsStaff() ==> r == db.orders
    ensures !caller.role.IsStaff() ==>
      forall id :: id in r <==> id in db.orders && db.orders[id].user == caller.id
    ensures forall id :: id in r ==> id in db.orders && r[id] == db.orders[id]
  {
    Visible(db.orders, (o: Order) => o.user, caller)
  }

  /** The order a caller has just placed is in that caller's listing. */
  lemma PlacedOrderIsListed(db: Db, caller: Caller, req: OrderRequest, newId: Id)
    requires newId !in db.orders
    requires CreateOrder(db, caller, req, newId).result.Ok?
    ensures var r := CreateOrder(db, caller, req, newId);
            newId in GetOrders(r.db, caller) && GetOrders(r.db, caller)[newId] == r.result.value
  {
  }

  /**
   * `updateOrderStatus` (staff only): an unknown id is a 404 and a status outside the enum a 400,
   * both with the store unchanged; otherwise the order's status, and nothing else, changes.
   * No transition is forbidden: any status may follow any other.
   */
  function UpdateOrderStatus(db: Db, caller: Caller, id: Id, status: string): (r: Reply<Order>)
    requires caller.role.IsStaff()
    ensures id !in db.orders ==> r == Reply(Err(OrderNotFound(id)), db)
    ensures r.result.Err? ==> r.db == db && r.result.error.Status() in {400, 404}
    ensures r.result.Ok? <==> id in db.orders && ParseOrderStatus(status).Some?
    ensures r.result.Ok? ==>
      && r.result.value.status.Name() == status
      && r.result.value.(status := db.orders[id].status) == db.orders[id]
      && r.db == db.(orders := db.orders[id := r.result.value])
  {
    if id !in db.orders then Reply(Err(OrderNotFound(id)), db)
    else
      match ParseOrderStatus(status)
      case None => Reply(Err(ValidationFailed), db)
      case Some(st) =>
        var order := db.orders[id].(status := st);
        Reply(Ok(order), db.(orders := db.orders[id := order]))
  }

  /** Setting the same status twice is setting it once. */
  lemma UpdateOrderStatusIdempotent(db: Db, caller: Caller, id: Id, status: string)
    requires caller.role.IsStaff()
    ensures var once := UpdateOrderStatus(db, caller, id, status);
            UpdateOrderStatus(once.db, caller, id, status) == once
  {
  }

  /** Status updates keep every stored order schema-valid and leave the catalog alone. */
  lemma UpdateOrderStatusKeepsOrdersValid(db: Db, caller: Caller, id: Id, status: string)
    requires caller.role.IsStaff()
    requires OrdersValid(db)
    ensures OrdersValid(UpdateOrderStatus(db, caller, id, status).db)
  {
  }

  // ---------------------------------------------------------------- non-atomic placement

  /**
   * As written, an item with a negative quantity passes the stock check (`stock < quantity` is
   * false), so its stock goes UP by `-quantity` and is saved; `Order.create` then rejects the
   * order (`min: 1`), and the raised stock stays.
   */
  lemma NegativeQuantityRaisesStock(db: Db, caller: Caller, req: OrderRequest, newId: Id, id: Id, q: int)
    requires newId !in db.orders
    requires req.items == Some([ItemRequest(id, q)]) && q < 0
    requires id in db.medicines && db.medicines[id].stock >= 0
    ensures var r := CreateOrder(db, caller, req, newId);
            && r.result.Err?
            && r.db.orders == db.orders
            && id in r.db.medicines
            && r.db.medicines[id].stock == db.medicines[id].stock - q > db.medicines[id].stock
  {
    var items := req.items.value;
    assert Admissible(db.medicines, items, 0);
    ProcessItemsAccepts(db.medicines, items);
    CreateOrderSucceedsIff(db, caller, req, newId);
    ProcessItemsSuccess(db.medicines, items);
    assert Demand(items, 1, id) == q;
  }

  /**
   * As written, an order for a prescription-only medicine without a prescription id is refused
   * with 400 after the stock has already been taken: the medicine loses `q` units and no order exists.
   */
  lemma RefusedPrescriptionKeepsDecrement(db: Db, caller: Caller, req: OrderRequest, newId: Id, id: Id, q: int)
    requires newId !in db.orders
    requires req.items == Some([ItemRequest(id, q)]) && req.prescriptionId.None?
    requires id in db.medicines && db.medicines[id].requiresPrescription
    requires 1 <= q <= db.medicines[id].stock
    ensures var r := CreateOrder(db, caller, req, newId);
            && r.result == Err(PrescriptionRequired)
            && r.db.orders == db.orders
            && id in r.db.medicines
            && r.db.medicines[id].stock == db.medicines[id].stock - q < db.medicines[id].stock
  {
    var items := req.items.value;
    assert Admissible(db.medicines, items, 0);
    ProcessItemsAccepts(db.medicines, items);
    ProcessItemsSuccess(db.medicines, items);
    assert NeedsPrescription(db.medicines, items, 1);
    assert Demand(items, 1, id) == q;
  }

  /**
   * Order placement as one transaction: the same checks in the same order, run against the
   * catalog without saving; the decrements and the order are stored together, and only when
   * every check has passed.
   */
  function CreateOrderAtomic(db: Db, caller: Caller, req: OrderRequest, newId: Id): (r: Reply<Order>)
    requires newId !in db.orders
    ensures r.result == CreateOrder(db, caller, req, newId).result
    ensures r.result.Err? ==> r.db == db
    ensures r.result.Ok? ==> r.db == CreateOrder(db, caller, req, newId).db
  {
    if NoItems(req) then Reply(Err(NoOrderItems), db)
    else
      var run := ProcessItems(db.medicines, req.items.value);
      match run.result
      case Err(e) => Reply(Err(e), db)
      case Ok(tally) =>
        match PrescriptionGate(db.prescriptions, caller, tally.needsPrescription, req.prescriptionId)
        case Some(e) => Reply(Err(e), db)
        case None =>
          var prescription := if tally.needsPrescription then req.prescriptionId else None;
          match NewOrder(caller.id, tally.lines, tally.total, prescription, req.paymentMethod, req.shippingAddress)
          case None => Reply(Err(ValidationFailed), db)
          case Some(order) => Reply(Ok(order), db.(medicines := run.catalog, orders := db.orders[newId := order]))
  }

  /** In the transactional version a negative quantity is refused and the stock is untouched. */
  lemma AtomicNegativeQuantityLeavesStock(db: Db, caller: Caller, req: OrderRequest, newId: Id, id: Id, q: int)
    requires newId !in db.orders
    requires req.items == Some([ItemRequest(id, q)]) && q < 0
    requires id in db.medicines && db.medicines[id].stock >= 0
    ensures var r := CreateOrderAtomic(db, caller, req, newId);
            r.result.Err? && r.db == db
  {
    NegativeQuantityRaisesStock(db, caller, req, newId, id, q);
  }
}

=== FILE: prescriptions.dfy ===
/**
 * The prescription controller: upload (a pending record owned by the caller), the ownership
 * filtered listing, and the staff review, which overwrites status, notes and reviewer
 * whatever the current status is.
 */
module Prescriptions {
  import opened Wrappers
  import opened Models
  import opened Store
  import Orders

  /**
   * `uploadPrescription`: without a stored file it is a 400 and nothing is created; otherwise a
   * pending, unreviewed prescription owned by the caller is stored under `newId`.
   */
  function UploadPrescription(db: Db, caller: Caller, file: Option<Upload>, newId: Id): (r: Reply<Prescription>)
    requires newId !in db.prescriptions
    ensures file.None? ==> r == Reply(Err(FileRequired), db)
    ensures r.result.Err? ==> r.db == db
    ensures r.result.Ok? <==> file.Some? && file.value.path != ""
    ensures r.result.Ok? ==>
      && r.result.value == Prescription(caller.id, file.value.path, Waiting, None, None)
      && r.db == db.(prescriptions := db.prescriptions[newId := r.result.value])
  {
    match file
    case None => Reply(Err(FileRequired), db)
    case Some(f) =>
      match NewPrescription(caller.id, f.path)
      case None => Reply(Err(ValidationFailed), db)
      case Some(p) => Reply(Ok(p), db.(prescriptions := db.prescriptions[newId := p]))
  }

  /** `getPrescriptions`: staff see every prescription, anyone else exactly their own. */
  function GetPrescriptions(db: Db, caller: Caller): (r: map<Id, Prescription>)
    ensures caller.role.IsStaff() ==> r == db.prescriptions
    ensures !caller.role.IsStaff() ==>
      forall id :: id in r <==> id in db.prescriptions && db.prescriptions[id].user == caller.id
    ensures forall id :: id in r ==> id in db.prescriptions && r[id] == db.prescriptions[id]
  {
    Visible(db.prescriptions, (p: Prescription) => p.user, caller)
  }

  /**
   * `reviewPrescription` (staff only): an unknown id is a 404 and a status outside the enum a 400,
   * both with the store unchanged; otherwise status, notes and reviewer are overwritten and the
   * owner and image are kept. The current status is not consulted.
   */
  function ReviewPrescription(db: Db, reviewer: Caller, id: Id, status: string, notes: string): (r: Reply<Prescription>)
    requires reviewer.role.IsStaff()
    ensures id !in db.prescriptions ==> r == Reply(Err(PrescriptionNotFound(id)), db)
    ensures r.result.Err? ==> r.db == db
    ensures r.result.Ok? <==> id in db.prescriptions && ParsePrescriptionStatus(status).Some?
    ensures r.result.Ok? ==>
      && r.result.value.status.Name() == status
      && r.result.value.reviewNotes == Some(notes)
      && r.result.value.reviewedBy == Some(reviewer.id)
      && r.result.value.user == db.prescriptions[id].user
      && r.result.value.imageUrl == db.prescriptions[id].imageUrl
      && r.db == db.(prescriptions := db.prescriptions[id := r.result.value])
  {
    if id !in db.prescriptions then Reply(Err(PrescriptionNotFound(id)), db)
    else
      match ParsePrescriptionStatus(status)
      case None => Reply(Err(ValidationFailed), db)
      case Some(st) =>
        var p := db.prescriptions[id].(status := st, reviewNotes := Some(notes), reviewedBy := Some(reviewer.id));
        Reply(Ok(p), db.(prescriptions := db.prescriptions[id := p]))
  }

  /** Applying the same review twice yields the same record and store as applying it once. */
  lemma ReviewIdempotent(db: Db, reviewer: Caller, id: Id, status: string, notes: string)
    requires reviewer.role.IsStaff()
    ensures var once := ReviewPrescription(db, reviewer, id, status, notes);
            ReviewPrescription(once.db, reviewer, id, status, notes) == once
  {
  }

  /**
   * Nothing stops a second review: a reviewed prescription can be reviewed again, and the
   * later review wins outright (an approval can be withdrawn, a rejection overturned).
   */
  lemma LaterReviewWins(db: Db, first: Caller, second: Caller, id: Id,
                        status1: string, notes1: string, status2: string, notes2: string)
    requires first.role.IsStaff() && second.role.IsStaff()
    ensures var r1 := ReviewPrescription(db, first, id, status1, notes1);
            ReviewPrescription(r1.db, second, id, status2, notes2).result
              == ReviewPrescription(db, second, id, status2, notes2).result
    ensures var r1 := ReviewPrescription(db, first, id, status1, notes1);
            ParsePrescriptionStatus(status2).Some? ==>
              ReviewPrescription(r1.db, second, id, status2, notes2).db
                == ReviewPrescription(db, second, id, status2, notes2).db
  {
  }

  /**
   * An uploaded prescription is pending, so the order gate refuses it, and it is in its owner's
   * listing.
   */
  lemma UploadedIsPendingAndListed(db: Db, caller: Caller, file: Option<Upload>, newId: Id)
    requires newId !in db.prescriptions
    requires UploadPrescription(db, caller, file, newId).result.Ok?
    ensures var r := UploadPrescription(db, caller, file, newId);
            && newId in GetPrescriptions(r.db, caller)
            && Orders.PrescriptionGate(r.db.prescriptions, caller, true, Some(newId)) == Some(PrescriptionNotApproved)
  {
  }

  /**
   * Upload, then approval by staff, is what opens the order gate for the owner, and only for the
   * owner: anyone else naming it gets "Invalid prescription".
   */
  lemma ApprovedUploadOpensGate(db: Db, caller: Caller, other: Caller, file: Option<Upload>, newId: Id,
                                reviewer: Caller, notes: string)
    requires newId !in db.prescriptions
    requires reviewer.role.IsStaff()
    requires UploadPrescription(db, caller, file, newId).result.Ok?
    requires other.id != caller.id
    ensures var up := UploadPrescription(db, caller, file, newId);
            var rev := ReviewPrescription(up.db, reviewer, newId, "approved", notes);
            && rev.result.Ok?
            && Orders.PrescriptionGate(rev.db.prescriptions, caller, true, Some(newId)).None?
            && Orders.PrescriptionGate(rev.db.prescriptions, other, true, Some(newId)) == Some(InvalidPrescription)
  {
  }
}

=== FILE: query.dfy ===
/**
 * The query-string side of `getMedicines`: the parsed query (`req.query`, strings, arrays and
 * nested objects as the query parser builds them), the removal of the reserved keys, the JSON
 * text of the remaining filter, and the regular-expression rewrite that turns the whole words
 * `gt`, `gte`, `lt`, `lte` and `in` into Mongo operators.
 */
module Query {
  import opened Wrappers

  /** A parsed query value: `a=x` gives a string, `a=x&a=y` an array, `a[b]=x` a nested object. */
  datatype Value = Str(text: string) | Arr(elems: seq<Value>) | Obj(fields: seq<Field>)

  datatype Field = Field(key: string, value: Value)

  /** A query object: its own keys, in insertion order. */
  type Params = seq<Field>

  // ---------------------------------------------------------------- reserved keys

  /** The keys the handler reads itself and deletes from the copy it turns into the filter. */
  const Reserved: set<string> := {"select", "sort", "page", "limit", "search"}

  /** `delete reqQuery[param]` for every reserved key: only top-level keys are removed, nested ones stay. */
  function StripReserved(q: Params): (r: Params)
    ensures forall f :: f in r <==> f in q && f.key !in Reserved
    ensures |r| <= |q|
    ensures |q| == 1 ==> r == (if q[0].key in Reserved then [] else q)
  {
    if |q| == 0 then []
    else if q[0].key in Reserved then StripReserved(q[1..])
    else [q[0]] + StripReserved(q[1..])
  }

  /** The value of a key: the first field carrying it. */
  function Lookup(q: Params, key: string): (r: Option<Value>)
    ensures r.None? <==> forall f :: f in q ==> f.key != key
    ensures r.Some? ==> Field(key, r.value) in q
  {
    if |q| == 0 then None
    else if q[0].key == key then Some(q[0].value)
    else Lookup(q[1..], key)
  }

  /** Stripping is local: the stripped query of a concatenation is the concatenation of the stripped parts. */
  lemma {:induction false} StripReservedAppend(a: Params, b: Params)
    ensures StripReserved(a + b) == StripReserved(a) + StripReserved(b)
  {
    if |a| == 0 {
      assert a + b == b;
    } else {
      assert (a + b)[1..] == a[1..] + b;
      StripReservedAppend(a[1..], b);
    }
  }

  /** A query without reserved keys passes through unchanged, order included. */
  lemma {:induction false} StripReservedKeepsPlainQuery(q: Params)
    requires forall f :: f in q ==> f.key !in Reserved
    ensures StripReserved(q) == q
  {
    if |q| > 0 {
      assert q[0] in q;
      assert forall f :: f in q[1..] ==> f in q;
      StripReservedKeepsPlainQuery(q[1..]);
    }
  }

  /**
   * The filter keeps exactly the non-reserved keys, each with the value the query gave it, and has
   * none of the reserved ones.
   */
  lemma {:induction false} LookupAfterStrip(q: Params, key: string)
    ensures Lookup(StripReserved(q), key) == (if key in Reserved then None else Lookup(q, key))
  {
    if |q| > 0 {
      LookupAfterStrip(q[1..], key);
    }
  }

  /** Stripping twice is stripping once. */
  lemma StripReservedIdempotent(q: Params)
    ensures StripReserved(StripReserved(q)) == StripReserved(q)
  {
    StripReservedKeepsPlainQuery(StripReserved(q));
  }

  // ---------------------------------------------------------------- JSON text

  /** Characters `JSON.stringify` copies into a string literal as they are. */
  predicate IsPlainChar(c: char)
  {
    c >= ' ' && c != '"' && c != '\\'
  }

  predicate AllPlain(s: string)
  {
    forall k :: 0 <= k < |s| ==> IsPlainChar(s[k])
  }

  function HexDigit(d: nat): char
    requires d < 16
  {
    if d < 10 then ('0' as int + d) as char else ('a' as int + d - 10) as char
  }

  /** The escape `JSON.stringify` writes for one character of a string. */
  function EscapeChar(c: char): (r: string)
    ensures IsPlainChar(c) <==> r == [c]
  {
    if c == '"' then "\\\""
    else if c == '\\' then "\\\\"
    else if c == '\U{0008}' then "\\b"
    else if c == '\U{000C}' then "\\f"
    else if c == '\n' then "\\n"
    else if c == '\r' then "\\r"
    else if c == '\t' then "\\t"
    else if c < ' ' then "\\u00" + [HexDigit(c as int / 16), HexDigit(c as int % 16)]
    else [c]
  }

  function Escape(s: string): (r: string)
    ensures |r| >= |s|
  {
    if |s| == 0 then "" else EscapeChar(s[0]) + Escape(s[1..])
  }

  /** A string literal: quotes around the escaped text. */
  function Quote(s: string): string
  {
    "\"" + Escape(s) + "\""
  }

  /**
   * `JSON.stringify` of a query value: a string becomes a quoted literal, an array a bracketed
   * list, an object a braced member list, so the first and last characters name the kind of value.
   */
  function Stringify(v: Value): (r: string)
    ensures |r| >= 2
    ensures r[0] == '"' <==> v.Str?
    ensures r[0] == '[' <==> v.Arr?
    ensures r[0] == '{' <==> v.Obj?
    ensures r[|r| - 1] == (match v case Str(_) => '"' case Arr(_) => ']' case Obj(_) => '}')
    decreases v, 1
  {
    match v
    case Str(t) => Quote(t)
    case Arr(es) => "[" + Elements(es) + "]"
    case Obj(fs) => "{" + Members(fs) + "}"
  }

  /** The array elements, comma separated. */
  function Elements(es: seq<Value>): string
    decreases es, 0
  {
    if |es| == 0 then ""
    else if |es| == 1 then Stringify(es[0])
    else Stringify(es[0]) + "," + Elements(es[1..])
  }

  /** The object members `"key":value`, comma separated. */
  function Members(fs: seq<Field>): string
    decreases fs, 0
  {
    if |fs| == 0 then ""
    else if |fs| == 1 then Member(fs[0])
    else Member(fs[0]) + "," + Members(fs[1..])
  }

  /** One object member: the quoted key, a colon, the value. */
  function Member(f: Field): string
    decreases f, 2
  {
    Quote(f.key) + ":" + Stringify(f.value)
  }

  /** Every key and string in the value is copied verbatim by `JSON.stringify` (nothing to escape). */
  predicate PlainValue(v: Value)
    decreases v, 1
  {
    match v
    case Str(t) => AllPlain(t)
    case Arr(es) => PlainValues(es)
    case Obj(fs) => PlainFields(fs)
  }

  predicate PlainValues(es: seq<Value>)
    decreases es, 0
  {
    |es| > 0 ==> PlainValue(es[0]) && PlainValues(es[1..])
  }

  predicate PlainFields(fs: seq<Field>)
    decreases fs, 0
  {
    |fs| > 0 ==> AllPlain(fs[0].key) && PlainValue(fs[0].value) && PlainFields(fs[1..])
  }

  lemma {:induction false} EscapePlain(s: string)
    requires AllPlain(s)
    ensures Escape(s) == s
  {
    if |s| > 0 {
      EscapePlain(s[1..]);
    }
  }

  // ---------------------------------------------------------------- the operator rewrite

  /** A character `\b` treats as part of a word: `[A-Za-z0-9_]`. */
  predicate IsWordChar(c: char)
  {
    ('a' <= c <= 'z') || ('A' <= c <= 'Z') || ('0' <= c <= '9') || c == '_'
  }

  /** The alternatives of the pattern `\b(gt|gte|lt|lte|in)\b`. */
  const Operators: set<string> := {"gt", "gte", "lt", "lte", "in"}

  /** The length of the run of word characters that starts the string. */
  function WordLength(s: string): (n: nat)
    ensures n <= |s|
    ensures forall k :: 0 <= k < n ==> IsWordChar(s[k])
    ensures n < |s| ==> !IsWordChar(s[n])
  {
    if |s| == 0 || !IsWordChar(s[0]) then 0 else 1 + WordLength(s[1..])
  }

  /** What the replacement callback makes of one whole word. */
  function RewriteWord(w: string): (r: string)
    ensures w in Operators <==> r == "$" + w
    ensures w !in Operators <==> r == w
  {
    if w in Operators then "$" + w else w
  }

  /**
   * `r` is `s` with some `$` characters inserted: deleting `$` characters from `r` gives `s` back,
   * every character of `s` kept in order. The scan matches a character of `r` against `s` whenever
   * it can, which for subsequences loses nothing.
   */
  predicate DollarsInserted(s: string, r: string)
    decreases |r|
  {
    if |r| == 0 then |s| == 0
    else if |s| > 0 && r[0] == s[0] then DollarsInserted(s[1..], r[1..])
    else r[0] == '$' && DollarsInserted(s, r[1..])
  }

  /** A common prefix keeps the insertion relation. */
  lemma {:induction false} DollarsInsertedPrefix(a: string, s: string, r: string)
    requires DollarsInserted(s, r)
    ensures DollarsInserted(a + s, a + r)
    decreases |a|
  {
    if |a| > 0 {
      assert (a + s)[0] == a[0] == (a + r)[0];
      assert (a + s)[1..] == a[1..] + s;
      assert (a + r)[1..] == a[1..] + r;
      DollarsInsertedPrefix(a[1..], s, r);
    } else {
      assert a + s == s && a + r == r;
    }
  }

  /**
   * `queryStr.replace(/\b(gt|gte|lt|lte|in)\b/g, m => "$" + m)`. Both boundaries of a match are word
   * boundaries and the alternatives are all word characters, so a match is exactly a maximal run of
   * word characters that spells an operator; the scan goes run by run.
   */
  function RewriteOperators(s: string): string
    decreases |s|
  {
    if |s| == 0 then ""
    else if !IsWordChar(s[0]) then [s[0]] + RewriteOperators(s[1..])
    else
      var n := WordLength(s);
      RewriteWord(s[..n]) + RewriteOperators(s[n..])
  }

  /** The rewrite is its input with `$` characters inserted, and nothing else changed. */
  lemma {:induction false} RewriteInsertsDollars(s: string)
    ensures DollarsInserted(s, RewriteOperators(s))
    decreases |s|
  {
    if |s| == 0 {
    } else if !IsWordChar(s[0]) {
      var rest := RewriteOperators(s[1..]);
      RewriteInsertsDollars(s[1..]);
      assert ([s[0]] + rest)[1..] == rest;
    } else {
      var n := WordLength(s);
      var w, rest := s[..n], RewriteOperators(s[n..]);
      RewriteInsertsDollars(s[n..]);
      DollarsInsertedPrefix(w, s[n..], rest);
      assert w + s[n..] == s;
      assert ("$" + w + rest)[1..] == w + rest;
    }
  }

  /** `s[i..j]` is a whole word: word characters only, with a word boundary on each side. */
  predicate IsWholeWord(s: string, i: int, j: int)
  {
    && 0 <= i < j <= |s|
    && (forall k :: i <= k < j ==> IsWordChar(s[k]))
    && (i == 0 || !IsWordChar(s[i - 1]))
    && (j == |s| || !IsWordChar(s[j]))
  }

  /** Some whole word of the text spells an operator. */
  ghost predicate HasOperatorWord(s: string)
  {
    exists i, j :: IsWholeWord(s, i, j) && s[i..j] in Operators
  }

  /** The run scan agrees with the whole-word view: a whole word starting the string is its first run. */
  lemma WholeWordAtStart(s: string, j: int)
    requires IsWholeWord(s, 0, j)
    ensures j == WordLength(s)
  {
  }

  /** A whole word of a suffix that does not start it is a whole word of the full string. */
  lemma WholeWordShiftUp(s: string, d: nat, i: int, j: int)
    requires d <= |s|
    requires IsWholeWord(s[d..], i, j)
    requires i > 0 || d == 0 || !IsWordChar(s[d - 1])
    ensures IsWholeWord(s, i + d, j + d)
    ensures s[d..][i..j] == s[i + d..j + d]
  {
    assert forall k :: i <= k < j ==> s[d..][k] == s[k + d];
  }

  /** A whole word of the string that starts after `d` is a whole word of the suffix from `d`. */
  lemma WholeWordShiftDown(s: string, d: nat, i: int, j: int)
    requires IsWholeWord(s, i, j) && d <= i
    ensures IsWholeWord(s[d..], i - d, j - d)
    ensures s[d..][i - d..j - d] == s[i..j]
  {
    forall k | i - d <= k < j - d
      ensures IsWordChar(s[d..][k])
    {
      assert s[d..][k] == s[k + d];
    }
  }

  /** The rewrite never shortens the text, and it lengthens it whenever an operator word occurs. */
  lemma {:induction false} RewriteGrows(s: string)
    ensures |RewriteOperators(s)| >= |s|
    ensures HasOperatorWord(s) ==> |RewriteOperators(s)| > |s|
    decreases |s|
  {
    if |s| == 0 {
    } else if !IsWordChar(s[0]) {
      RewriteGrows(s[1..]);
      if HasOperatorWord(s) {
        var i, j :| IsWholeWord(s, i, j) && s[i..j] in Operators;
        assert i != 0;
        WholeWordShiftDown(s, 1, i, j);
        assert HasOperatorWord(s[1..]);
      }
    } else {
      var n := WordLength(s);
      RewriteGrows(s[n..]);
      if HasOperatorWord(s) {
        var i, j :| IsWholeWord(s, i, j) && s[i..j] in Operators;
        if i == 0 {
          WholeWordAtStart(s, j);
          assert s[..n] == s[i..j];
        } else {
          assert !IsWordChar(s[i - 1]);
          assert i > n;
          WholeWordShiftDown(s, n, i, j);
          assert HasOperatorWord(s[n..]);
        }
      }
    }
  }

  /** Text without an operator word comes out of the rewrite unchanged. */
  lemma {:induction false} RewriteKeepsText(s: string)
    requires !HasOperatorWord(s)
    ensures RewriteOperators(s) == s
    decreases |s|
  {
    if |s| == 0 {
    } else if !IsWordChar(s[0]) {
      if HasOperatorWord(s[1..]) {
        var i, j :| IsWholeWord(s[1..], i, j) && s[1..][i..j] in Operators;
        WholeWordShiftUp(s, 1, i, j);
        assert false;
      }
      RewriteKeepsText(s[1..]);
      assert [s[0]] + s[1..] == s;
    } else {
      var n := WordLength(s);
      assert IsWholeWord(s, 0, n);
      assert s[..n] == s[0..n];
      if HasOperatorWord(s[n..]) {
        var i, j :| IsWholeWord(s[n..], i, j) && s[n..][i..j] in Operators;
        assert i > 0 by {
          if i == 0 {
            assert s[n..][0] == s[n];
          }
        }
        WholeWordShiftUp(s, n, i, j);
        assert false;
      }
      RewriteKeepsText(s[n..]);
      assert s[..n] + s[n..] == s;
    }
  }

  /** The rewrite changes the text exactly when some whole word of it is an operator. */
  lemma RewriteUnchangedIff(s: string)
    ensures RewriteOperators(s) == s <==> !HasOperatorWord(s)
  {
    RewriteGrows(s);
    if !HasOperatorWord(s) {
      RewriteKeepsText(s);
    }
  }

  /**
   * The text starts with a whole operator word: two or three letters spelling an operator, not
   * followed by another word character.
   */
  predicate StartsWithOperator(t: string)
  {
    || (|t| >= 2 && t[..2] in Operators && (|t| == 2 || !IsWordChar(t[2])))
    || (|t| >= 3 && t[..3] in Operators && (|t| == 3 || !IsWordChar(t[3])))
  }

  /** The inverse of the rewrite: delete every `$` that stands in front of an operator word. */
  function DropOperatorDollars(t: string): (r: string)
    ensures |r| <= |t|
    decreases |t|
  {
    if |t| == 0 then ""
    else if t[0] == '$' && StartsWithOperator(t[1..]) then DropOperatorDollars(t[1..])
    else [t[0]] + DropOperatorDollars(t[1..])
  }

  /** Word characters are never a `$`, so a leading word passes through the inverse unchanged. */
  lemma {:induction false} DropAfterWord(w: string, y: string)
    requires forall k :: 0 <= k < |w| ==> IsWordChar(w[k])
    ensures DropOperatorDollars(w + y) == w + DropOperatorDollars(y)
    decreases |w|
  {
    if |w| == 0 {
      assert w + y == y;
    } else {
      assert (w + y)[0] == w[0];
      assert (w + y)[1..] == w[1..] + y;
      DropAfterWord(w[1..], y);
    }
  }

  /** Text that starts with a maximal run of word characters spelling no operator does not start with one. */
  lemma RunNotOperator(t: string, m: nat)
    requires 0 < m <= |t| && forall k :: 0 <= k < m ==> IsWordChar(t[k])
    requires m == |t| || !IsWordChar(t[m])
    requires t[..m] !in Operators
    ensures !StartsWithOperator(t)
  {
  }

  /** Text that starts with a delimiter does not start with an operator word. */
  lemma DelimiterNotOperator(t: string)
    requires |t| > 0 && !IsWordChar(t[0])
    ensures !StartsWithOperator(t)
  {
  }

  /** The rewrite never leaves an operator word at the start of its output: a `$` always precedes it. */
  lemma RewriteStartsWithoutOperator(x: string)
    ensures !StartsWithOperator(RewriteOperators(x))
  {
    var rx := RewriteOperators(x);
    if |x| > 0 && IsWordChar(x[0]) {
      var n := WordLength(x);
      var w, rest := x[..n], RewriteOperators(x[n..]);
      RewriteRunUnfold(x);
      if w !in Operators {
        assert |rest| == 0 || rest[0] == x[n];
        assert rx == w + rest;
        assert rx[..n] == w;
        RunNotOperator(rx, n);
      } else {
        assert rx[0] == '$';
        DelimiterNotOperator(rx);
      }
    } else if |x| > 0 {
      assert rx[0] == x[0];
      DelimiterNotOperator(rx);
    }
  }

  /** Deleting the `$` the rewrite put before each operator word gives back the input, whatever it is. */
  lemma {:induction false} DropRewriteRoundTrip(s: string)
    ensures DropOperatorDollars(RewriteOperators(s)) == s
    decreases |s|
  {
    if |s| == 0 {
    } else if !IsWordChar(s[0]) {
      DropRewriteRoundTrip(s[1..]);
      DropAfterDelimiter(s);
      assert [s[0]] + s[1..] == s;
    } else {
      var n := WordLength(s);
      DropRewriteRoundTrip(s[n..]);
      assert s[..n] + s[n..] == s;
      DropAfterRun(s[..n], s[n..]);
    }
  }

  /** A delimiter, `$` included, survives the rewrite and its inverse. */
  lemma DropAfterDelimiter(s: string)
    requires |s| > 0 && !IsWordChar(s[0])
    ensures DropOperatorDollars(RewriteOperators(s)) == [s[0]] + DropOperatorDollars(RewriteOperators(s[1..]))
  {
    var rest := RewriteOperators(s[1..]);
    var t := [s[0]] + rest;
    assert RewriteOperators(s) == t;
    assert t[0] == s[0] && t[1..] == rest;
    RewriteStartsWithoutOperator(s[1..]);
  }

  /** A leading run of word characters, rewritten or not, comes back out of the inverse as it was. */
  lemma DropAfterRun(w: string, x: string)
    requires |w| > 0 && forall k :: 0 <= k < |w| ==> IsWordChar(w[k])
    requires |x| == 0 || !IsWordChar(x[0])
    ensures DropOperatorDollars(RewriteOperators(w + x)) == w + DropOperatorDollars(RewriteOperators(x))
  {
    RewriteWordThenRest(w, x);
    RewriteStartsLikeInput(x);
    DropRewrittenWord(w, RewriteOperators(x));
  }

  /** The rewrite of a word followed by a delimiter or by nothing: the rewritten word, then the rest. */
  lemma RewriteWordThenRest(w: string, x: string)
    requires |w| > 0 && forall k :: 0 <= k < |w| ==> IsWordChar(w[k])
    requires |x| == 0 || !IsWordChar(x[0])
    ensures RewriteOperators(w + x) == RewriteWord(w) + RewriteOperators(x)
  {
    var s := w + x;
    WordLengthAppend(w, x);
    WordLengthOfWord(w);
    assert s[..|w|] == w && s[|w|..] == x;
    RewriteRunUnfold(s);
  }

  /** A string of word characters only is one run. */
  lemma {:induction false} WordLengthOfWord(w: string)
    requires forall k :: 0 <= k < |w| ==> IsWordChar(w[k])
    ensures WordLength(w) == |w|
  {
    if |w| > 0 {
      WordLengthOfWord(w[1..]);
    }
  }

  /** The rewrite of a text that starts with a delimiter starts with that delimiter. */
  lemma RewriteStartsLikeInput(x: string)
    ensures |x| == 0 ==> RewriteOperators(x) == []
    ensures |x| > 0 && !IsWordChar(x[0]) ==> |RewriteOperators(x)| > 0 && RewriteOperators(x)[0] == x[0]
  {
  }

  /** A `$` in front of an operator word is deleted, and the word kept. */
  lemma DropDollarWord(w: string, y: string)
    requires forall k :: 0 <= k < |w| ==> IsWordChar(w[k])
    requires StartsWithOperator(w + y)
    ensures DropOperatorDollars("$" + w + y) == w + DropOperatorDollars(y)
  {
    DropDollar(w + y);
    DropAfterWord(w, y);
    assert "$" + w + y == "$" + (w + y);
  }

  /** A `$` in front of an operator word is deleted. */
  lemma DropDollar(t: string)
    requires StartsWithOperator(t)
    ensures DropOperatorDollars("$" + t) == DropOperatorDollars(t)
  {
    assert ("$" + t)[1..] == t;
  }

  /** An operator word followed by a delimiter or by nothing starts with an operator word. */
  lemma OperatorBeforeDelimiter(w: string, y: string)
    requires w in Operators
    requires |y| == 0 || !IsWordChar(y[0])
    ensures StartsWithOperator(w + y)
  {
    var t := w + y;
    assert t[..|w|] == w;
    if |y| > 0 {
      assert t[|w|] == y[0];
    }
    assert |w| == 2 || |w| == 3 by {
      assert w == "gt" || w == "gte" || w == "lt" || w == "lte" || w == "in";
    }
  }

  /** One step of the rewrite at a word character: the leading run, then the rest. */
  lemma RewriteRunUnfold(s: string)
    requires |s| > 0 && IsWordChar(s[0])
    ensures RewriteOperators(s) == RewriteWord(s[..WordLength(s)]) + RewriteOperators(s[WordLength(s)..])
  {
  }

  /** A whole word after its rewrite, followed by text that does not continue the word. */
  lemma DropRewrittenWord(w: string, y: string)
    requires |w| > 0 && forall k :: 0 <= k < |w| ==> IsWordChar(w[k])
    requires |y| == 0 || !IsWordChar(y[0])
    ensures DropOperatorDollars(RewriteWord(w) + y) == w + DropOperatorDollars(y)
  {
    if w in Operators {
      OperatorBeforeDelimiter(w, y);
      DropDollarWord(w, y);
    } else {
      DropAfterWord(w, y);
    }
  }

  /** The first run of a concatenation stays inside the left part when the left part ends a word. */
  lemma {:induction false} WordLengthAppend(a: string, b: string)
    requires WordLength(a) < |a| || |b| == 0 || !IsWordChar(b[0])
    ensures WordLength(a + b) == WordLength(a)
  {
    if |a| == 0 {
      assert a + b == b;
    } else if IsWordChar(a[0]) {
      assert (a + b)[1..] == a[1..] + b;
      WordLengthAppend(a[1..], b);
    }
  }

  /** Splitting at a word boundary: the rewrite of a concatenation is the concatenation of the rewrites. */
  lemma {:induction false} RewriteAppend(a: string, b: string)
    requires |a| == 0 || |b| == 0 || !IsWordChar(a[|a| - 1]) || !IsWordChar(b[0])
    ensures RewriteOperators(a + b) == RewriteOperators(a) + RewriteOperators(b)
    decreases |a|
  {
    if |a| == 0 {
      assert a + b == b;
    } else if |b| == 0 {
      assert a + b == a;
    } else if !IsWordChar(a[0]) {
      assert (a + b)[0] == a[0];
      assert (a + b)[1..] == a[1..] + b;
      RewriteAppend(a[1..], b);
    } else {
      var n := WordLength(a);
      if n == |a| {
        assert IsWordChar(a[|a| - 1]);
      }
      WordLengthAppend(a, b);
      assert (a + b)[..n] == a[..n];
      assert (a + b)[n..] == a[n..] + b;
      RewriteAppend(a[n..], b);
    }
  }

  /** The rewrite only inserts `$`, so text `JSON.stringify` copies verbatim stays so. */
  lemma {:induction false} RewriteKeepsPlain(s: string)
    requires AllPlain(s)
    ensures AllPlain(RewriteOperators(s))
    decreases |s|
  {
    if |s| > 0 {
      if !IsWordChar(s[0]) {
        RewriteKeepsPlain(s[1..]);
      } else {
        var n := WordLength(s);
        RewriteKeepsPlain(s[n..]);
      }
    }
  }

  /** The same rewrite, applied to every key and every string of a value instead of to its text. */
  function RewriteValue(v: Value): Value
    decreases v, 1
  {
    match v
    case Str(t) => Str(RewriteOperators(t))
    case Arr(es) => Arr(RewriteValues(es))
    case Obj(fs) => Obj(RewriteFields(fs))
  }

  function RewriteValues(es: seq<Value>): (r: seq<Value>)
    ensures |r| == |es|
    decreases es, 0
  {
    if |es| == 0 then [] else [RewriteValue(es[0])] + RewriteValues(es[1..])
  }

  function RewriteFields(fs: seq<Field>): (r: seq<Field>)
    ensures |r| == |fs|
    decreases fs, 0
  {
    if |fs| == 0 then []
    else [Field(RewriteOperators(fs[0].key), RewriteValue(fs[0].value))] + RewriteFields(fs[1..])
  }

  /** A delimiter between two pieces of text is a word boundary on both sides. */
  lemma RewriteAround(x: string, c: char, y: string)
    requires !IsWordChar(c)
    ensures RewriteOperators(x + [c] + y) == RewriteOperators(x) + [c] + RewriteOperators(y)
  {
    var cy := [c] + y;
    assert x + [c] + y == x + cy;
    RewriteAppend(x, cy);
    RewriteAppend([c], y);
    assert RewriteOperators([c]) == [c] by {
      assert [c][1..] == [];
    }
    assert RewriteOperators(cy) == [c] + RewriteOperators(y);
    assert RewriteOperators(x) + ([c] + RewriteOperators(y)) == RewriteOperators(x) + [c] + RewriteOperators(y);
  }

  /** Text between two delimiters is rewritten on its own. */
  lemma RewriteWrapped(open: char, x: string, close: char)
    requires !IsWordChar(open) && !IsWordChar(close)
    ensures RewriteOperators([open] + x + [close]) == [open] + RewriteOperators(x) + [close]
  {
    var xc := x + [close];
    assert [open] + x + [close] == [open] + xc;
    RewriteAppend([open], xc);
    RewriteAppend(x, [close]);
    RewriteDelimiter(open);
    RewriteDelimiter(close);
    assert [open] + (RewriteOperators(x) + [close]) == [open] + RewriteOperators(x) + [close];
  }

  /** A single delimiter is left alone. */
  lemma RewriteDelimiter(c: char)
    requires !IsWordChar(c)
    ensures RewriteOperators([c]) == [c]
  {
    assert [c][1..] == [];
  }

  /** A quoted plain string: the quotes are word boundaries, so only the text inside is rewritten. */
  lemma RewriteQuote(t: string)
    requires AllPlain(t)
    ensures RewriteOperators(Quote(t)) == Quote(RewriteOperators(t))
  {
    EscapePlain(t);
    RewriteKeepsPlain(t);
    EscapePlain(RewriteOperators(t));
    RewriteWrapped('"', t, '"');
  }

  /**
   * Rewriting the JSON text of a plain value is the same as rewriting every key and string of the
   * value and then writing it out: the regular expression acts on keys and values alike, and every
   * JSON delimiter is a word boundary.
   */
  lemma {:induction false} RewriteStringify(v: Value)
    requires PlainValue(v)
    ensures RewriteOperators(Stringify(v)) == Stringify(RewriteValue(v))
    decreases v, 1
  {
    match v
    case Str(t) =>
      RewriteQuote(t);
    case Arr(es) =>
      RewriteElements(es);
      RewriteWrapped('[', Elements(es), ']');
    case Obj(fs) =>
      RewriteMembers(fs);
      RewriteWrapped('{', Members(fs), '}');
  }

  lemma {:induction false} RewriteElements(es: seq<Value>)
    requires PlainValues(es)
    ensures RewriteOperators(Elements(es)) == Elements(RewriteValues(es))
    decreases es, 0
  {
    if |es| > 0 {
      RewriteStringify(es[0]);
      var rewritten := RewriteValues(es);
      assert rewritten[0] == RewriteValue(es[0]);
      if |es| > 1 {
        RewriteElements(es[1..]);
        assert rewritten[1..] == RewriteValues(es[1..]);
        RewriteAround(Stringify(es[0]), ',', Elements(es[1..]));
      }
    }
  }

  lemma {:induction false} RewriteMember(f: Field)
    requires AllPlain(f.key) && PlainValue(f.value)
    ensures RewriteOperators(Member(f)) == Member(Field(RewriteOperators(f.key), RewriteValue(f.value)))
    decreases f, 2
  {
    RewriteQuote(f.key);
    RewriteStringify(f.value);
    RewriteAround(Quote(f.key), ':', Stringify(f.value));
  }

  lemma {:induction false} RewriteMembers(fs: seq<Field>)
    requires PlainFields(fs)
    ensures RewriteOperators(Members(fs)) == Members(RewriteFields(fs))
    decreases fs, 0
  {
    if |fs| > 0 {
      RewriteMember(fs[0]);
      var rewritten := RewriteFields(fs);
      assert rewritten[0] == Field(RewriteOperators(fs[0].key), RewriteValue(fs[0].value));
      if |fs| > 1 {
        RewriteMembers(fs[1..]);
        assert rewritten[1..] == RewriteFields(fs[1..]);
        RewriteAround(Member(fs[0]), ',', Members(fs[1..]));
      }
    }
  }

  // ---------------------------------------------------------------- the filter

  /** The text handed to `JSON.parse` and then to `Medicine.find`: the stripped query, stringified and rewritten. */
  function FilterText(q: Params): string
  {
    RewriteOperators(Stringify(Obj(StripReserved(q))))
  }

  /**
   * For a query whose keys and strings need no escaping, the filter is the stripped query with every
   * operator word, key or value, turned into its `$` form.
   */
  lemma FilterOfPlainQuery(q: Params)
    requires PlainFields(StripReserved(q))
    ensures FilterText(q) == Stringify(RewriteValue(Obj(StripReserved(q))))
  {
    RewriteStringify(Obj(StripReserved(q)));
  }

  /** Only word characters: `[A-Za-z0-9_]+`. */
  predicate IsWord(w: string)
  {
    |w| > 0 && forall k :: 0 <= k < |w| ==> IsWordChar(w[k])
  }

  /**
   * `?price[gte]=10&page=2` and every query of its shape: `page` is dropped, the nested operator
   * key becomes the Mongo operator, and the field name and the value, words that are not
   * operators, are kept as they are.
   */
  lemma NestedOperatorFilter(field: string, op: string, value: string, page: Value)
    requires IsWord(field) && field !in Operators && field !in Reserved
    requires op in Operators
    requires IsWord(value) && value !in Operators
    ensures FilterText([Field(field, Obj([Field(op, Str(value))])), Field("page", page)])
         == Stringify(Obj([Field(field, Obj([Field("$" + op, Str(value))]))]))
  {
    var inner := [Field(op, Str(value))];
    var kept := [Field(field, Obj(inner))];
    var q := kept + [Field("page", page)];
    assert StripReserved(q) == kept by {
      assert q[1..] == [Field("page", page)];
      assert q[1..][1..] == [];
    }
    assert IsWord(op);
    WordIsPlain(field);
    WordIsPlain(op);
    WordIsPlain(value);
    assert PlainFields(inner) by {
      assert PlainValue(Str(value));
      assert PlainFields(inner[1..]) by {
        assert inner[1..] == [];
      }
    }
    assert PlainFields(kept) by {
      assert kept[1..] == [];
    }
    FilterOfPlainQuery(q);
    RewriteSingleWord(field);
    RewriteSingleWord(op);
    RewriteSingleWord(value);
    assert RewriteFields(inner) == [Field("$" + op, Str(value))] by {
      assert inner[1..] == [];
    }
    assert RewriteFields(kept) == [Field(field, Obj([Field("$" + op, Str(value))]))] by {
      assert kept[1..] == [];
    }
  }

  /** Word characters are all copied verbatim by `JSON.stringify`. */
  lemma WordIsPlain(w: string)
    requires IsWord(w)
    ensures AllPlain(w)
  {
  }

  /** A string of word characters only is one whole word, and is rewritten as one. */
  lemma RewriteSingleWord(w: string)
    requires |w| > 0 && forall k :: 0 <= k < |w| ==> IsWordChar(w[k])
    ensures RewriteOperators(w) == RewriteWord(w)
  {
    var n := WordLength(w);
    assert n == |w|;
    assert RewriteOperators(w) == RewriteWord(w[..n]) + RewriteOperators(w[n..]);
    assert w[..n] == w;
    assert w[n..] == [];
  }

  // ---------------------------------------------------------------- JavaScript conversions

  /** `String(v)`: arrays join their elements with commas, objects print as "[object Object]". */
  function ToJsString(v: Value): string
    decreases v, 1
  {
    match v
    case Str(t) => t
    case Arr(es) => JoinStrings(es)
    case Obj(_) => "[object Object]"
  }

  function JoinStrings(es: seq<Value>): string
    decreases es, 0
  {
    if |es| == 0 then ""
    else if |es| == 1 then ToJsString(es[0])
    else ToJsString(es[0]) + "," + JoinStrings(es[1..])
  }

  /** The `if (req.query.x)` test: absent and the empty string are falsy, arrays and objects truthy. */
  predicate Truthy(v: Option<Value>)
  {
    v.Some? && (v.value.Str? ==> v.value.text != "")
  }
}

=== FILE: store.dfy ===
/**
 * The document store the controllers work on, the errors they pass to `next`, and the
 * ownership filter shared by the order and prescription listings.
 */
module Store {
  import opened Wrappers
  import opened Models

  /** The four collections, each a map from document id to document. */
  datatype Db = Db(
    users: map<Id, User>,
    medicines: map<Id, Medicine>,
    prescriptions: map<Id, Prescription>,
    orders: map<Id, Order>)

  /** Every error a modelled handler raises (`next(new ErrorResponse(message, code))` or a schema failure). */
  datatype Error =
    | NoOrderItems
    | MedicineNotFound(medicine: Id)
    | InsufficientStock(medicineName: string)
    | PrescriptionRequired
    | InvalidPrescription
    | PrescriptionNotApproved
    | OrderNotFound(order: Id)
    | PrescriptionNotFound(prescription: Id)
    | FileRequired
    | ValidationFailed
    | MissingCredentials
    | InvalidCredentials
    | RefreshTokenRequired
    | InvalidRefreshToken
    | DuplicateEmail
    | NegativeSkip
    | NotText(parameter: string)
  {
    /**
     * The HTTP status the error response carries: 404 for a missing record, 401 for rejected
     * credentials or refresh token, 500 for what Mongo or JavaScript throws, 400 for the rest.
     */
    function Status(): (r: nat)
      ensures r in {400, 401, 404, 500}
      ensures r == 404 <==> this.MedicineNotFound? || this.OrderNotFound? || this.PrescriptionNotFound?
      ensures r == 401 <==> this.InvalidCredentials? || this.InvalidRefreshToken?
      ensures r == 500 <==> this.NegativeSkip? || this.NotText?
    {
      match this
      case MedicineNotFound(_) => 404
      case OrderNotFound(_) => 404
      case PrescriptionNotFound(_) => 404
      case InvalidCredentials => 401
      case InvalidRefreshToken => 401
      case NegativeSkip => 500
      case NotText(_) => 500
      case _ => 400
    }
  }

  /** What a handler hands back: its response (payload or error) and the store after the request. */
  datatype Reply<+T> = Reply(result: Result<T, Error>, db: Db)

  /**
   * The listing filter of `getOrders` and `getPrescriptions`: staff get the whole collection,
   * anyone else exactly the documents whose owner is the caller.
   */
  function Visible<T>(records: map<Id, T>, owner: T -> Id, caller: Caller): (r: map<Id, T>)
    ensures caller.role.IsStaff() ==> r == records
    ensures !caller.role.IsStaff() ==>
      forall id :: id in r <==> id in records && owner(records[id]) == caller.id
    ensures forall id :: id in r ==> id in records && r[id] == records[id]
  {
    if caller.role.IsStaff() then records
    else map id | id in records && owner(records[id]) == caller.id :: records[id]
  }
}

=== FILE: text.dfy ===
/**
 * The two pieces of JavaScript string behaviour the backend relies on:
 * `String.prototype.trim` (the `trim: true` option on the medicine name) and
 * `parseInt(s, 10)` (the `page` and `limit` query parameters).
 */
module Text {
  import opened Wrappers

  /** ECMAScript WhiteSpace and LineTerminator code points: what `trim` strips and `parseInt` skips. */
  predicate IsJsWhitespace(c: char)
  {
    || c == '\t' || c == '\n' || c == '\U{000B}' || c == '\U{000C}' || c == '\r' || c == ' '
    || c == '\U{00A0}' || c == '\U{1680}' || ('\U{2000}' <= c <= '\U{200A}')
    || c == '\U{2028}' || c == '\U{2029}' || c == '\U{202F}' || c == '\U{205F}'
    || c == '\U{3000}' || c == '\U{FEFF}'
  }

  predicate AllWhitespace(s: string)
  {
    forall k :: 0 <= k < |s| ==> IsJsWhitespace(s[k])
  }

  /** Scan forward from `i` over whitespace: the index of the first non-whitespace character at or after `i`, or `|s|`. */
  function SkipBlanks(s: string, i: nat): (j: nat)
    requires i <= |s|
    ensures i <= j <= |s|
    ensures forall k :: i <= k < j ==> IsJsWhitespace(s[k])
    ensures j < |s| ==> !IsJsWhitespace(s[j])
    decreases |s| - i
  {
    if i < |s| && IsJsWhitespace(s[i]) then SkipBlanks(s, i + 1) else i
  }

  /** Scan back from `hi` over whitespace, not past `lo`: where the trailing whitespace of `s[lo..hi]` starts. */
  function BackOverBlanks(s: string, lo: nat, hi: nat): (j: nat)
    requires lo <= hi <= |s|
    ensures lo <= j <= hi
    ensures forall k :: j <= k < hi ==> IsJsWhitespace(s[k])
    ensures j > lo ==> !IsJsWhitespace(s[j - 1])
    decreases hi
  {
    if hi > lo && IsJsWhitespace(s[hi - 1]) then BackOverBlanks(s, lo, hi - 1) else hi
  }

  /** The scan's outcome is pinned down by what it promises: any `j` with those properties is it. */
  lemma SkipBlanksUnique(s: string, i: nat, j: nat)
    requires i <= j <= |s|
    requires forall k :: i <= k < j ==> IsJsWhitespace(s[k])
    requires j < |s| ==> !IsJsWhitespace(s[j])
    ensures SkipBlanks(s, i) == j
  {
  }

  /** `String.prototype.trimStart`: `s` without its leading whitespace. */
  function TrimStart(s: string): string
  {
    s[SkipBlanks(s, 0)..]
  }

  /** Neither starts nor ends with whitespace. */
  predicate IsTrimmed(s: string)
  {
    |s| > 0 ==> !IsJsWhitespace(s[0]) && !IsJsWhitespace(s[|s| - 1])
  }

  /** `String.prototype.trim`: the slice of `s` between its leading and its trailing whitespace. */
  function Trim(s: string): (r: string)
    ensures exists i :: 0 <= i <= |s| - |r| && r == s[i..i + |r|]
                        && AllWhitespace(s[..i]) && AllWhitespace(s[i + |r|..])
    ensures IsTrimmed(r)
  {
    var a := SkipBlanks(s, 0);
    var b := BackOverBlanks(s, a, |s|);
    BlankEnds(s, a, b);
    assert s[a..b] == s[a..a + |s[a..b]|];
    s[a..b]
  }

  /** The scans' promises, restated on the slices `Trim` keeps and cuts. */
  lemma BlankEnds(s: string, a: nat, b: nat)
    requires a == SkipBlanks(s, 0) && b == BackOverBlanks(s, a, |s|)
    ensures AllWhitespace(s[..a]) && AllWhitespace(s[b..])
    ensures IsTrimmed(s[a..b])
  {
    forall k | 0 <= k < a
      ensures IsJsWhitespace(s[..a][k])
    {
      assert s[..a][k] == s[k];
    }
    forall k | 0 <= k < |s| - b
      ensures IsJsWhitespace(s[b..][k])
    {
      assert s[b..][k] == s[b + k];
    }
    var r := s[a..b];
    assert |r| > 0 ==> r[0] == s[a] && r[|r| - 1] == s[b - 1];
  }

  /** A trimmed string is empty exactly when the input was nothing but whitespace. */
  lemma TrimEmptyIffBlank(s: string)
    ensures Trim(s) == [] <==> AllWhitespace(s)
  {
    var a := SkipBlanks(s, 0);
    if Trim(s) == [] {
      assert BackOverBlanks(s, a, |s|) == a;
    }
  }

  /** Trimming leaves a string alone exactly when it has no whitespace at either end. */
  lemma TrimFixedIffTrimmed(s: string)
    ensures Trim(s) == s <==> IsTrimmed(s)
  {
    if IsTrimmed(s) && |s| > 0 {
      assert SkipBlanks(s, 0) == 0;
      assert BackOverBlanks(s, 0, |s|) == |s|;
      assert s[0..|s|] == s;
    }
  }

  /** Trimming twice is trimming once. */
  lemma TrimIdempotent(s: string)
    ensures Trim(Trim(s)) == Trim(s)
  {
    TrimFixedIffTrimmed(Trim(s));
  }

  predicate IsDigit(c: char)
  {
    '0' <= c <= '9'
  }

  predicate AllDigits(s: string)
  {
    forall k :: 0 <= k < |s| ==> IsDigit(s[k])
  }

  /** Length of the longest all-digit prefix of `s`. */
  function DigitRun(s: string): (n: nat)
    ensures n <= |s| && AllDigits(s[..n])
    ensures n < |s| ==> !IsDigit(s[n])
    decreases |s|
  {
    if |s| > 0 && IsDigit(s[0]) then 1 + DigitRun(s[1..]) else 0
  }

  function DigitValue(c: char): nat
    requires IsDigit(c)
  {
    (c as int - '0' as int) as nat
  }

  function DigitChar(d: nat): (c: char)
    requires d < 10
    ensures IsDigit(c) && DigitValue(c) == d
  {
    (d + '0' as int) as char
  }

  /** The value of a string of decimal digits, most significant first. */
  function DigitsValue(ds: string): nat
    requires AllDigits(ds)
    decreases |ds|
  {
    if |ds| == 0 then 0 else DigitsValue(ds[..|ds| - 1]) * 10 + DigitValue(ds[|ds| - 1])
  }

  /** The canonical decimal spelling of `n` (what `String(n)` prints for a safe integer). */
  function NatToString(n: nat): (s: string)
    ensures |s| > 0 && AllDigits(s)
    decreases n
  {
    if n < 10 then [DigitChar(n)] else NatToString(n / 10) + [DigitChar(n % 10)]
  }

  /**
   * `parseInt(s, 10)`: skip leading whitespace, take one optional sign, then the longest run of
   * decimal digits; `None` stands for NaN (no digit at all). Trailing text after the digits is ignored.
   */
  function ParseInt(s: string): (r: Option<int>)
    ensures r.None? <==> DigitRun(Unsigned(TrimStart(s))) == 0
  {
    var t := TrimStart(s);
    var body := Unsigned(t);
    var n := DigitRun(body);
    if n == 0 then None
    else
      var magnitude: int := DigitsValue(body[..n]);
      Some(if |t| > 0 && t[0] == '-' then -magnitude else magnitude)
  }

  /** `s` without one leading `+` or `-`. */
  function Unsigned(s: string): string
  {
    if |s| > 0 && (s[0] == '-' || s[0] == '+') then s[1..] else s
  }

  lemma {:induction false} DigitsValueOfNatToString(n: nat)
    ensures DigitsValue(NatToString(n)) == n
    decreases n
  {
    if n >= 10 {
      var p := NatToString(n / 10);
      var s := p + [DigitChar(n % 10)];
      assert s[..|s| - 1] == p;
      DigitsValueOfNatToString(n / 10);
    }
  }

  lemma {:induction false} DigitRunAfterDigits(a: string, b: string)
    requires AllDigits(a)
    ensures DigitRun(a + b) == |a| + DigitRun(b)
    decreases |a|
  {
    if |a| > 0 {
      assert (a + b)[1..] == a[1..] + b;
      DigitRunAfterDigits(a[1..], b);
    } else {
      assert a + b == b;
    }
  }

  /**
   * `parseInt` reads back the decimal spelling of a natural number, whatever non-digit text
   * follows it ("10", "10abc", "10 " and "10.5" all read as 10).
   */
  lemma ParseIntOfDecimal(n: nat, rest: string)
    requires |rest| == 0 || !IsDigit(rest[0])
    ensures ParseInt(NatToString(n) + rest) == Some(n)
  {
    var d := NatToString(n);
    var s := d + rest;
    assert s[0] == d[0];
    assert TrimStart(s) == s;
    assert Unsigned(s) == s;
    DigitRunAfterDigits(d, rest);
    if |rest| > 0 {
      assert rest[..0] == [];
    }
    assert DigitRun(rest) == 0;
    assert s[..|d|] == d;
    DigitsValueOfNatToString(n);
  }

  /** A leading minus sign negates what `parseInt` reads. */
  lemma ParseIntOfNegative(n: nat)
    ensures ParseInt("-" + NatToString(n)) == Some(-(n as int))
  {
    var d := NatToString(n);
    var s := "-" + d;
    assert TrimStart(s) == s;
    assert Unsigned(s) == d;
    DigitRunAfterDigits(d, []);
    assert d + [] == d;
    assert d[..|d|] == d;
    DigitsValueOfNatToString(n);
  }

  /** Whitespace put in front of `s` is exactly what `TrimStart` removes on top of `s`'s own. */
  lemma TrimStartSkipsBlank(w: string, s: string)
    requires AllWhitespace(w)
    ensures TrimStart(w + s) == TrimStart(s)
  {
    var ws := w + s;
    var j := SkipBlanks(s, 0);
    forall k | 0 <= k < |w| + j
      ensures IsJsWhitespace(ws[k])
    {
      if k >= |w| {
        assert ws[k] == s[k - |w|];
      }
    }
    if |w| + j < |ws| {
      assert ws[|w| + j] == s[j];
    }
    SkipBlanksUnique(ws, 0, |w| + j);
    assert ws[|w| + j..] == s[j..];
  }

  /** Leading whitespace does not change what `parseInt` reads. */
  lemma ParseIntSkipsLeadingBlank(w: string, s: string)
    requires AllWhitespace(w)
    ensures ParseInt(w + s) == ParseInt(s)
  {
    TrimStartSkipsBlank(w, s);
  }
}

=== FILE: wrappers.dfy ===
/** Option and Result, the two failure-carrying datatypes the rest of the model uses. */
module Wrappers {

  /** A value that may be absent: a missing request field, a lookup that found nothing. */
  datatype Option<+T> = None | Some(value: T) {

    /** The wrapped value, or `default` when there is none. */
    function GetOr(default: T): T
    {
      match this
      case Some(v) => v
      case None => default
    }
  }

  /** The outcome of a request handler: a payload, or the error the handler passes to `next`. */
  datatype Result<+T, +E> = Ok(value: T) | Err(error: E)
}
